=== FILE: README.md ===
# Task bot core in Dafny

This project models the decision logic of a Telegram bot that manages tasks. Users write
free Russian text. The bot finds a title, a description, a due date, a priority and an
`@mention` in that text and stores a task. The model covers:

- **Extractor** (`nlp_utils.py`). `extract_task_info` splits off the title at the first
  `.`. It then tries six date patterns in order on the lower-cased text. The first pattern
  that matches anywhere decides the due date. Priority comes from substring tables: the
  high table is checked first, then the low table. `extract_user_mention` returns the
  handle of the leftmost `@(\w+)`.
- **Handlers** (`bot.py`). The model covers the routing of a text message to the first
  handler whose filter accepts it, the filter that starts task creation,
  `process_task_creation`, `/start`, `/assign`, `/delete`, `/edit`, `/mytasks` and
  `/created_tasks`. Each is a pure transition on an immutable `Store`. The store holds
  the `users` and `tasks` tables of `models.py`. Each handler reports which branch it
  took: bad format, unknown sender, task not found, not the creator, unknown assignee,
  or done.
- **Settings** (`config.py`). `ADMIN_IDS` is read by splitting on `,`, dropping empty
  pieces and applying `int` to each. `DATABASE_URL` falls back to a default.

Modules:

- `Wrappers` (`wrappers.dfy`): `Option`.
- `Text` (`text.dfy`): the Python `str` operations the code uses:
  - `strip`, `lower`, `split('.')` and `'.'.join`;
  - `split()` with and without `maxsplit`;
  - `lstrip('@')` and substring containment.
- `Patterns` (`patterns.dfy`): each regular expression as an explicit matcher with
  Python's backtracking semantics, and `re.search` as the leftmost match.
- `TaskExtraction` (`extraction.dfy`): the two extractor functions. The clock is a
  parameter `now`. `datetime` overflow is an explicit `None`.
- `TaskStore` (`store.dfy`): rows, the store, its integrity constraints (`Valid`), the
  `.first()` lookups, and the two relationships as sets of task ids.
- `Bot` (`bot.dfy`): the handlers, and the lemmas that each one keeps `Valid` and how it
  changes the listings.
- `Configuration` (`config.dfy`): `int()`, `ADMIN_IDS`, `DATABASE_URL` and a
  round-trip lemma for the admin list.

Behaviour the code has and a reader might not expect (the model follows the code):

- The title may be empty. Text whose part before the first `.` is blank, such as text
  that starts with `.`, gives the title `""` (`TaskExtraction.TitleEmptyIff`).
- `/start`, `/help` and `/created_tasks` are registered before the creation filter, and
  `/mytasks`, `/assign`, `/delete` and `/edit` after it. So `/start создать задачу`
  creates no task, while `/edit 3 Задача: отчёт` creates one and edits nothing
  (`Bot.Route`, `Bot.HandleText`).
- `завтра` is searched as a substring, so inflected words such as `завтрашнему` also
  set the due date to tomorrow.
- The two numbered-day patterns (`к 5 марта`, `до 10 числа`) are recognised but yield
  no due date. Because the first matching pattern decides, they also suppress any later
  `завтра` or `через N дней`.
- The low-priority phrases `не срочно` and `не приоритетная` contain the high indicators
  `срочно` and `приоритетная`, so they always give high priority.
- The `message.text and ...` test in the creation filter guards against a message
  without text (a voice message, a photo, a sticker), where `message.text` is `None`
  and `.lower()` would raise inside the filter. Only its emptiness half is implied by
  the containment test, since empty text contains no creation phrase.
- When the due date overflows `datetime`, the handler's `except` branch only replies.
  No task is stored, but the sender's user row was already committed.

## Model

| member | source | states |
|---|---|---|
| Text.Strip | nlp_utils.py:21 | the result is a slice of the input with only whitespace cut from each end; it is empty or starts and ends with non-whitespace |
| Text.StripUnpadded | nlp_utils.py:21 | stripping a string that neither starts nor ends with whitespace returns it unchanged |
| Text.StripEmptyIff | nlp_utils.py:21 | stripping gives the empty string iff the input is all whitespace |
| Text.StripPadded | nlp_utils.py:21 | a slice whose ends are not whitespace, with only whitespace before and after it, is exactly what stripping leaves |
| Text.Split | nlp_utils.py:21-24 | `split('.')` gives at least one piece; no piece contains the separator; joining the pieces with it gives back the input |
| Text.SplitWhitespace | bot.py:310 | `split(maxsplit=m)`: the pieces are exactly the slices of the input at the boundaries of a whitespace split (`IsSplit`): whitespace only before, between and after them, the first m pieces whole words, at most m+1 pieces, and when the limit is reached the last piece runs to the end of the input |
| Text.SplitBoundsIsSplit | bot.py:310 | the boundaries the scan computes form a whitespace split of the input |
| Text.IsSplitUnique | bot.py:310 | two whitespace splits of the same input with the same limit are equal, so the characterisation pins the pieces down |
| Text.LStripChar | bot.py:321 | `lstrip('@')` removes exactly the leading run of '@': the result is a suffix, what was cut is all '@', and the result does not start with '@' |
| Text.LowerChar | nlp_utils.py:38 | the result is never a capital letter; a capital is changed, any other character is kept |
| Text.UpperLettersAreTables | nlp_utils.py:38 | the capitals are exactly the letters of the Latin and Cyrillic alphabet tables and `Ё` |
| Text.LowerCharFollowsTables | nlp_utils.py:38 | each capital becomes the small letter at the same place of its alphabet table, and `Ё` becomes `ё` |
| Text.Lower | nlp_utils.py:38 | lower-casing keeps the length, maps each character on its own, leaves no capital, and keeps every other character |
| Text.LowerIdempotent | bot.py:195 | lower-casing an already lower-cased text changes nothing |
| Text.IndexOf | nlp_utils.py:21 | finds the first occurrence of the separator, or none iff it does not occur |
| Text.ContainsTransitive | nlp_utils.py:61 | a substring of a substring of the text is a substring of the text |
| Patterns.NumberedDayAt | nlp_utils.py:29-30 | `к`/`до`, one or two digits, the optional ending, a space and a Cyrillic word match at a position for some choice of digit count and ending |
| Patterns.CountAt | nlp_utils.py:33-34 | `через`, the maximal digit run, a space and a unit word match at a position |
| Patterns.MentionAt | nlp_utils.py:69 | `@(\w+)` matches at a position: an '@' followed by a word character |
| Patterns.DigitRun | nlp_utils.py:33-34 | `\d+` is greedy: the run is all digits and is followed by a non-digit or the end |
| Patterns.SearchFrom | nlp_utils.py:38 | `re.search` returns the leftmost matching position at or after the start, and none iff there is no match there |
| Patterns.LiteralMatchesIffContains | nlp_utils.py:31-32 | a pattern without metacharacters matches iff the text contains it |
| Patterns.CountGroupIsDigitRun | nlp_utils.py:33-34 | after backtracking, the group `(\d+)` captures exactly the maximal digit run, and the pattern matches iff a unit word follows that run |
| TaskExtraction.AddDays | nlp_utils.py:41-49 | `now + timedelta(days=d)` succeeds iff the date stays within year 9999; it then keeps the time of day and moves the day by d |
| TaskExtraction.SplitTitle | nlp_utils.py:21-24 | the title is the stripped text before the first '.' and contains no '.'; the description is the stripped text after that '.', or "" when there is none |
| TaskExtraction.TitleEmptyIff | nlp_utils.py:21 | the title is empty iff the text before the first '.' (all of it when there is none) is all whitespace |
| TaskExtraction.FirstRule | nlp_utils.py:37-50 | picks the first rule in table order that matches anywhere, with its leftmost match position; no earlier rule matches; none iff no rule matches |
| TaskExtraction.Resolve | nlp_utils.py:40-49 | the day offset of the matched pattern: none for the numbered-day patterns, 1 for `завтра`, 7 for next week, N or 7·N for the `через` patterns with N the captured number |
| TaskExtraction.DueDays | nlp_utils.py:37-50 | the due date's day offset is decided by the first pattern in table order that matches the lower-cased text |
| TaskExtraction.DueDaysAbsent | nlp_utils.py:27-50 | there is no due date iff a numbered-day pattern matches or no date pattern matches |
| TaskExtraction.FirstMatchingRuleDecides | nlp_utils.py:37-50 | the order of the patterns decides, not the position in the text: the first pattern that matches determines the due date |
| TaskExtraction.NumberedDayGivesNoDate | nlp_utils.py:29-30 | `к N-ому ...` or `до N-ого ...` leaves the task without a due date |
| TaskExtraction.TomorrowGivesOneDay | nlp_utils.py:31 | `завтра` anywhere gives one day unless a numbered-day pattern matched, even after an earlier `через` phrase |
| TaskExtraction.InflectedTomorrowGivesOneDay | nlp_utils.py:40-41 | `завтрашнему` also gives one day, since the search is for a substring |
| TaskExtraction.NextWeekGivesSevenDays | nlp_utils.py:42-43 | `на следующей неделе`, with no earlier pattern matching, gives seven days |
| TaskExtraction.InDaysGivesCount | nlp_utils.py:44-46 | `через N день/дня/дней` gives N days, with N taken from the leftmost match |
| TaskExtraction.InWeeksGivesSevenTimesCount | nlp_utils.py:47-49 | `через N неделю/недели/недель` gives 7·N days, with N taken from the leftmost match |
| TaskExtraction.AnyContained | nlp_utils.py:61 | `any(w in s ...)` holds iff some word of the table is a substring |
| TaskExtraction.PriorityOf | nlp_utils.py:53-63 | high iff some high indicator occurs in the lower-cased text; low iff no high indicator and some low indicator occurs; medium otherwise |
| TaskExtraction.NegatedPhrasesGiveHigh | nlp_utils.py:54-63 | `не срочно` and `не приоритетная` always give high priority |
| TaskExtraction.LowPriorityPhrases | nlp_utils.py:54-63 | low priority iff no high indicator occurs and `низкий приоритет` or `когда будет время` does |
| TaskExtraction.ExtractMention | nlp_utils.py:67-71 | none iff no `@` is followed by a word character; otherwise the handle is non-empty, made of word characters, comes from the leftmost such `@`, and extends to the end of the word run |
| TaskExtraction.ExtractTaskInfo | nlp_utils.py:13-65 | fails iff the due date overflows; otherwise title and description follow the first-'.' split, priority follows the tables, and the due date is now plus the decided days with the time of day kept |
| TaskStore.Valid | models.py:11-37 | the integrity constraints: user ids and Telegram ids are unique, every id is below the next id, and every task's creator and assignee are stored users |
| TaskStore.UserByTelegram | bot.py:234 | `.first()` on the Telegram id: the first stored user with that id, or none iff there is no such user |
| TaskStore.UserByUsername | bot.py:254 | `.first()` on the username: the first stored user with that handle, or none iff there is no such user |
| Bot.TriggersCreation | bot.py:195 | the creation handler runs iff the text is present and its lower-cased form contains a creation phrase |
| Bot.TriggerIgnoresCase | bot.py:195 | the creation filter gives the same answer for a text and its lower-cased form |
| Bot.GetOrCreateUser | bot.py:233-238 | a known sender leaves the store unchanged and yields the stored user; an unknown one is appended with the next id, its Telegram id and its handle |
| Bot.MentionedAssignee | bot.py:253-256 | none iff there is no mention or no stored user has the mentioned handle; otherwise the id of the first user with that handle |
| Bot.ProcessTaskCreation | bot.py:227-259 | the user is created even when extraction fails, and failure changes nothing else; on success the task counter advances by one, the user table is the one get-or-create left; on success exactly one task is added under the next id, with the extracted fields, status pending, not completed, the sender as creator, and an assignee iff a stored user has the mentioned handle, namely the first such user (`.first()`) |
| Bot.ParseCommandToken | bot.py:120 | a `Command` filter's token starts with '/'; the name has no '@'; the token is '/' + name, followed by '@' + mention when it holds an '@' |
| Bot.CommandOf | bot.py:120 | none when the text is blank; otherwise the command is read from the first whole token after the leading whitespace |
| Bot.FirstPartIsToken | bot.py:120 | the first part of `split(maxsplit=1)` exists iff the text is not blank, and is then the first whitespace-delimited token |
| Bot.AddressedCommand | bot.py:120 | a command is addressed to this bot iff the text has a command token whose mention is empty or equals the bot's username up to letter case; its name is the token's name |
| Bot.Route | bot.py:120-430 | in registration order: `/start`, `/help`, `/created_tasks` win over the creation filter; the creation filter wins over `/mytasks`, `/assign`, `/delete`, `/edit`; no handler iff neither a creation phrase nor one of the seven commands |
| Bot.HandleText | bot.py:120-470 | `/start` gets or creates the sender; `/help`, `/created_tasks` and `/mytasks` change nothing; a creation phrase creates unless one of the first three commands came first; `/assign`, `/delete`, `/edit` without a creation phrase run their command; anything else changes nothing; tasks change only through creation or those three commands |
| Bot.HandleTextKeepsValid | bot.py:120-470 | every text message keeps the store's constraints |
| Bot.OwnershipGuard | bot.py:325-345 | unknown sender iff the sender is not stored; task not found iff the sender is stored and the id matches no task; not the creator iff both exist and the task's creator is someone else; done iff the sender created the task |
| Bot.AssignTask | bot.py:305-355 | bad format iff the text does not split into three tokens; done iff the sender owns the task and the handle names a stored user; unknown assignee iff the sender owns the task and no stored user has the handle; otherwise the ownership check's reply; only when done is the task's assignee changed, and nothing else |
| Bot.DeleteTask | bot.py:385-422 | bad format iff `split(maxsplit=1)` does not give two parts; any other reply is the ownership check's; done iff the sender owns the task; only then is exactly that task removed |
| Bot.EditTask | bot.py:430-470 | bad format iff `split(maxsplit=2)` does not give three parts; any other reply is the ownership check's; done iff the sender owns the task; only then its title becomes the rest of the text, and nothing else changes |
| Bot.GetOrCreateKeepsValid | bot.py:233-238 | get-or-create keeps the store's constraints, loses no user, and returns a stored user |
| Bot.InsertKeepsValid | bot.py:245-259 | inserting a task whose creator and assignee are stored users, under the next id, keeps the constraints, and that id was free |
| Bot.ReplaceKeepsValid | models.py:36-37 | replacing a task by one whose creator and assignee are stored users keeps the constraints |
| Bot.FoundUserIsStored | bot.py:348 | a user found by a lookup is one of the stored users |
| Bot.CreationKeepsValid | bot.py:227-259 | task creation keeps the constraints, and the new task's id was not in use |
| Bot.CreationListedForCreator | bot.py:164-174 | after creation the sender's created list is the old list plus the new task |
| Bot.ReassignLists | bot.py:354 | changing a task's assignee adds it to the new assignee's list, removes it from every other list, and leaves the created lists alone |
| Bot.AssignKeepsValid | bot.py:347-355 | `/assign` keeps the constraints: the new assignee is a stored user |
| Bot.AssignMovesTask | bot.py:275-286 | after `/assign` the task shows up in the new assignee's `/mytasks` and in no other user's |
| Bot.DeleteKeepsValid | bot.py:420-422 | `/delete` keeps the constraints |
| Bot.DeleteRemovesTask | bot.py:415-422 | a deleted task was in the sender's created list and is gone from every listing |
| Bot.RetitleLists | bot.py:467-470 | renaming a task changes no listing |
| Bot.EditKeepsValidAndListings | bot.py:467-470 | `/edit` keeps the constraints and changes no listing |
| Bot.MyTasks | bot.py:275-286 | nothing for an unknown sender; otherwise exactly the tasks assigned to the sender |
| Bot.CreatedTasks | bot.py:164-174 | nothing for an unknown sender; otherwise exactly the tasks the sender created |
| Configuration.ParseInt | config.py:11 | `int()` of a blank string fails, and so does a string holding an information separator `\x1c`–`\x1f` |
| Configuration.ParseIntAccepts | config.py:11 | a sign-optional run of ASCII digits with only skippable whitespace around it parses to its value; `\x1c`–`\x1f` are not skippable |
| Configuration.ParseIntShape | config.py:11 | whatever parses is such a literal between skippable whitespace, with the literal's value; every character is a digit, a sign or skippable whitespace |
| Configuration.ParseIntRejectsStray | config.py:11 | one character that is not a digit, a sign or skippable whitespace makes the parse fail |
| Configuration.LeadingZerosIgnored | config.py:11 | leading zeros do not change the value of a digit string |
| Configuration.ShowNat | config.py:11 | the decimal digits of n, read back as a number, give n |
| Configuration.ParseShowInt | config.py:11 | `int(str(n)) == n` for every integer, negative ones included |
| Configuration.NonEmpty | config.py:11 | `if id` keeps only the non-empty pieces, and keeps all of them when none is empty |
| Configuration.NonEmptySingle | config.py:11 | a single piece is kept iff it is non-empty |
| Configuration.NonEmptyAppend | config.py:11 | filtering a concatenation is concatenating the filtered parts, so pieces are kept in order |
| Configuration.ParseAll | config.py:11 | the list comprehension fails iff some piece is not an integer literal; otherwise it maps `int` over the pieces in order |
| Configuration.AdminIds | config.py:11 | unset or empty gives []; fails iff some non-empty comma-separated piece is not an integer literal; otherwise the ids in order |
| Configuration.SplitJoin | config.py:11 | splitting on a separator undoes joining with it when no piece contains it |
| Configuration.AdminIdsRoundTrip | config.py:11 | reading back `",".join(map(str, ids))` gives the same ids in the same order |
| Configuration.DatabaseUrl | config.py:10 | the variable's value when it is set, even when empty; `sqlite:///tasks.db` when it is unset |
| Configuration.LoadConfig | config.py:7-13 | configuration fails iff `ADMIN_IDS` cannot be parsed; otherwise the token, URL and admin ids are as above |

## Left out

- The voice pipeline (`convert_voice_to_text`, `handle_voice`): it calls speech
  recognition and writes temporary files. Its result only feeds `ProcessTaskCreation`.
- spaCy: `nlp(text)` is computed in `extract_task_info` but never used.
- Reply texts, keyboards and the notification to the assignee. Only the branch each
  handler takes is modelled, and what it does to the store.
- Bot.AddressedCommand: aiogram's `Command` filter also reads a photo's caption, and
  asks Telegram for the bot's username. Captions are not modelled, and the username is
  the parameter `botUsername`. Its case-insensitive comparison uses `Text.Lower`, with
  the limits stated for it below.
- Voice messages reach their own handler (bot.py:200), which needs a voice
  attachment; `Bot.Route` covers text messages only.
- The SQLAlchemy session and transactions. `created_at` is left out because nothing in
  the core reads it.
- Primary keys come from a counter in the store. SQLite may reuse the largest freed id;
  the counter never does.
- Bot.AssignTask: `Task.id == task_id` compares an integer column with the raw token.
  SQLite's type affinity decides which tokens match. The model takes that as a parameter
  `resolve` and proves its results for every such function. The same holds for
  Bot.DeleteTask and Bot.EditTask.
- Text.Lower: only ASCII letters, the basic Cyrillic block and `Ё` are lower-cased.
  Python's full Unicode case mapping is not modelled.
- Text.IsWordChar: `\w` is limited to ASCII letters, digits, `_` and Cyrillic letters.
  `\d` is limited to ASCII digits. Other Unicode letters and digits are not modelled.
- Configuration.ParseInt: the accepted strings are an optional sign and ASCII digits
  with whitespace around them. Whitespace is `str.isspace` except `\x1c`–`\x1f`,
  which `int()` rejects anywhere. Underscores between digits, non-ASCII digits and
  the 4300-digit limit are not modelled: the model rejects `"1_000"` and Arabic-Indic
  digits, which `int()` accepts.
- Configuration.LoadConfig: whether `BOT_TOKEN` is a usable token, and how `load_dotenv`
  reads `.env`, are not modelled. The environment is a parameter.
- `datetime.now()` is the parameter `now`, as a day ordinal and microseconds since
  midnight.
- `web_server.py` is not part of this model.

=== FILE: bot.dfy ===
/**
 * The decision rules of the chat handlers: which messages create a task, and what
 * `/assign`, `/delete`, `/edit`, `/mytasks` and `/created_tasks` do to the store.
 * Replies are reduced to which branch of the handler was taken.
 */
module Bot {
  import opened Wrappers
  import opened Text
  import opened TaskExtraction
  import opened TaskStore

  /** The sender of a message: `message.from_user.id` and `message.from_user.username`. */
  datatype Sender = Sender(telegramId: int, username: Option<string>)

  /** The branch a command handler ends in; every branch but `Done` only sends a reply. */
  datatype Reply = BadFormat | UnknownSender | TaskNotFound | NotCreator | UnknownAssignee | Done

  // ---------------------------------------------------------------- creation

  const CreationPhrases: seq<string> := ["создать задачу", "новая задача", "задача:"]

  /**
   * The filter of the `create_task` handler: the message has non-empty text whose
   * lower-cased form contains one of the creation phrases. (The emptiness test is
   * implied by the containment.)
   */
  function TriggersCreation(text: Option<string>): (r: bool)
    ensures r <==> text.Some? && exists k :: 0 <= k < |CreationPhrases| && Contains(Lower(text.value), CreationPhrases[k])
  {
    text.Some? && |text.value| > 0 && AnyContained(Lower(text.value), CreationPhrases)
  }

  /** The creation filter ignores letter case. */
  lemma TriggerIgnoresCase(text: string)
    ensures TriggersCreation(Some(text)) == TriggersCreation(Some(Lower(text)))
  {
    LowerIdempotent(text);
  }

  /** The stored user with the sender's Telegram id, if there is one. */
  function KnownSender(st: Store, sender: Sender): Option<User> {
    UserByTelegram(st.users, sender.telegramId)
  }

  /**
   * Get-or-create: the user with the sender's Telegram id, or a new user with the
   * next id, the sender's Telegram id and handle, appended to the users.
   */
  function GetOrCreateUser(st: Store, sender: Sender): (r: (Store, User))
    ensures r.1.telegramId == sender.telegramId && r.1 in r.0.users
    ensures r.0.tasks == st.tasks && r.0.nextTaskId == st.nextTaskId
    ensures (exists i :: 0 <= i < |st.users| && st.users[i].telegramId == sender.telegramId) ==> r.0 == st
    ensures (forall i :: 0 <= i < |st.users| ==> st.users[i].telegramId != sender.telegramId) ==>
      && r.0.users == st.users + [r.1]
      && r.1 == User(st.nextUserId, sender.telegramId, sender.username)
      && r.0.nextUserId == st.nextUserId + 1
  {
    match KnownSender(st, sender)
    case Some(u) => (st, u)
    case None =>
      var u := User(st.nextUserId, sender.telegramId, sender.username);
      (st.(users := st.users + [u], nextUserId := st.nextUserId + 1), u)
  }

  /** The assignee of a new task: the first user whose username is the mentioned handle. */
  function MentionedAssignee(users: seq<User>, text: string): (r: Option<UserId>)
    ensures r.None? <==>
      ExtractMention(text).None? || forall i :: 0 <= i < |users| ==> users[i].username != ExtractMention(text)
    ensures r.Some? ==> exists i ::
      && 0 <= i < |users| && users[i].id == r.value && users[i].username == ExtractMention(text)
      && forall j :: 0 <= j < i ==> users[j].username != ExtractMention(text)
  {
    match ExtractMention(text)
    case None => None
    case Some(handle) =>
      match UserByUsername(users, handle)
      case None => None
      case Some(u) => Some(u.id)
  }

  /**
   * `process_task_creation`: get or create the sender (committed first), extract
   * the fields, resolve the mention and insert the task under the next id. When
   * the extraction raises, the handler only replies, and the user stays created.
   */
  function ProcessTaskCreation(st: Store, sender: Sender, text: string, now: Instant): (r: (Store, Option<TaskId>))
    requires now.Valid()
    ensures r.0.users == GetOrCreateUser(st, sender).0.users
    ensures r.1.None? <==> ExtractTaskInfo(text, now).None?
    ensures r.1.None? ==> r.0.tasks == st.tasks && r.0 == GetOrCreateUser(st, sender).0
    ensures r.1.Some? ==>
      r.0.nextTaskId == st.nextTaskId + 1 && r.0.nextUserId == GetOrCreateUser(st, sender).0.nextUserId
    ensures r.1.Some? ==>
      var k := r.1.value;
      var d := ExtractTaskInfo(text, now).value;
      && k == st.nextTaskId && k in r.0.tasks
      && r.0.tasks == st.tasks[k := r.0.tasks[k]]
      && r.0.tasks[k].title == d.title && r.0.tasks[k].description == d.description
      && r.0.tasks[k].due == d.due && r.0.tasks[k].priority == d.priority
      && r.0.tasks[k].status == DefaultStatus && !r.0.tasks[k].isCompleted
      && r.0.tasks[k].creatorId == GetOrCreateUser(st, sender).1.id
    ensures r.1.Some? ==>
      var t := r.0.tasks[r.1.value];
      && (t.assigneeId.Some? <==>
            ExtractMention(text).Some? && UserByUsername(r.0.users, ExtractMention(text).value).Some?)
      && (t.assigneeId.Some? ==>
            t.assigneeId == Some(UserByUsername(r.0.users, ExtractMention(text).value).value.id))
      && (t.assigneeId.Some? ==> exists i ::
            0 <= i < |r.0.users| && r.0.users[i].id == t.assigneeId.value
            && r.0.users[i].username == ExtractMention(text))
  {
    var (st1, me) := GetOrCreateUser(st, sender);
    match ExtractTaskInfo(text, now)
    case None => (st1, None)
    case Some(d) =>
      var k := st1.nextTaskId;
      var t := Task(d.title, d.description, d.due, DefaultStatus, d.priority,
                    MentionedAssignee(st1.users, text), me.id, false);
      (st1.(tasks := st1.tasks[k := t], nextTaskId := k + 1), Some(k))
  }

  // ---------------------------------------------------------------- routing

  /**
   * A command token split at its first '@' after the leading '/': the command name
   * and the mention. `None` when the token does not start with '/'.
   */
  function ParseCommandToken(token: string): (r: Option<(string, string)>)
    ensures r.Some? <==> |token| > 0 && token[0] == '/'
    ensures r.Some? ==>
      var (name, mention) := r.value;
      && '@' !in name
      && (if '@' in token then token == "/" + name + "@" + mention
          else token == "/" + name && mention == "")
  {
    if |token| == 0 || token[0] != '/' then None
    else
      var body := token[1..];
      assert token == "/" + body;
      match IndexOf(body, '@')
      case None => Some((body, ""))
      case Some(i) =>
        assert body == body[..i] + "@" + body[i + 1..];
        Some((body[..i], body[i + 1..]))
  }

  /**
   * How a `Command` filter reads a text: the first of at most two whitespace-separated
   * parts is the command token. `None` when the text is blank or the token lacks '/'.
   */
  function CommandOf(text: string): (r: Option<(string, string)>)
    ensures AllSpace(text) ==> r.None?
    ensures !AllSpace(text) ==>
      exists a, b :: SpaceIn(text, 0, a) && TokenIn(text, a, b) && r == ParseCommandToken(text[a..b])
  {
    var parts := SplitWhitespace(text, 1);
    FirstPartIsToken(text);
    if |parts| == 0 then None else ParseCommandToken(parts[0])
  }

  /** The first part of `split(maxsplit=1)` is the first whitespace-delimited token. */
  lemma FirstPartIsToken(text: string)
    ensures var parts := SplitWhitespace(text, 1);
      && (|parts| == 0 <==> AllSpace(text))
      && (|parts| > 0 ==> exists a, b :: SpaceIn(text, 0, a) && TokenIn(text, a, b) && parts[0] == text[a..b])
  {
    var parts := SplitWhitespace(text, 1);
    var bs := SplitBounds(text, 0, 1);
    if |parts| > 0 {
      assert TokenIn(text, bs[0].0, bs[0].1);
      assert !IsSpace(text[bs[0].0]);
    } else {
      assert SpaceIn(text, 0, |text|);
    }
  }

  /**
   * The command a text carries for this bot: the parsed name, unless the mention is
   * non-empty and differs from the bot's username up to letter case.
   */
  function AddressedCommand(text: Option<string>, botUsername: string): (r: Option<string>)
    ensures r.Some? <==>
      && text.Some? && CommandOf(text.value).Some?
      && (CommandOf(text.value).value.1 == "" || Lower(CommandOf(text.value).value.1) == Lower(botUsername))
    ensures r.Some? ==> r.value == CommandOf(text.value).value.0 && '@' !in r.value
  {
    if text.None? then None
    else match CommandOf(text.value)
      case None => None
      case Some((name, mention)) =>
        if mention == "" || Lower(mention) == Lower(botUsername) then Some(name) else None
  }

  /** The `Command(name)` filter: the command name matches exactly (letter case included). */
  predicate IsCommand(text: Option<string>, name: string, botUsername: string) {
    AddressedCommand(text, botUsername) == Some(name)
  }

  /** The commands with a handler, in any order. */
  const CommandNames: seq<string> := ["start", "help", "created_tasks", "mytasks", "assign", "delete", "edit"]

  /** The text-message handlers, named after the filters that select them. */
  datatype Handler =
    | StartCommand | HelpCommand | CreatedTasksCommand | CreateTask
    | MyTasksCommand | AssignCommand | DeleteCommand | EditCommand | NoHandler

  /**
   * The handler a text message reaches: the first whose filter accepts it, in the
   * order of registration. Three commands are registered before the creation
   * filter and four after it.
   */
  function Route(text: Option<string>, botUsername: string): (h: Handler)
    ensures h == StartCommand <==> IsCommand(text, "start", botUsername)
    ensures h == HelpCommand <==> IsCommand(text, "help", botUsername)
    ensures h == CreatedTasksCommand <==> IsCommand(text, "created_tasks", botUsername)
    ensures h == CreateTask <==>
      && TriggersCreation(text)
      && !IsCommand(text, "start", botUsername) && !IsCommand(text, "help", botUsername)
      && !IsCommand(text, "created_tasks", botUsername)
    ensures h == MyTasksCommand <==> IsCommand(text, "mytasks", botUsername) && !TriggersCreation(text)
    ensures h == AssignCommand <==> IsCommand(text, "assign", botUsername) && !TriggersCreation(text)
    ensures h == DeleteCommand <==> IsCommand(text, "delete", botUsername) && !TriggersCreation(text)
    ensures h == EditCommand <==> IsCommand(text, "edit", botUsername) && !TriggersCreation(text)
    ensures h == NoHandler <==>
      !TriggersCreation(text) && forall k :: 0 <= k < |CommandNames| ==> !IsCommand(text, CommandNames[k], botUsername)
  {
    assert CommandNames[0] == "start" && CommandNames[1] == "help" && CommandNames[2] == "created_tasks";
    assert CommandNames[3] == "mytasks" && CommandNames[4] == "assign" && CommandNames[5] == "delete";
    assert CommandNames[6] == "edit";
    if IsCommand(text, "start", botUsername) then StartCommand
    else if IsCommand(text, "help", botUsername) then HelpCommand
    else if IsCommand(text, "created_tasks", botUsername) then CreatedTasksCommand
    else if TriggersCreation(text) then CreateTask
    else if IsCommand(text, "mytasks", botUsername) then MyTasksCommand
    else if IsCommand(text, "assign", botUsername) then AssignCommand
    else if IsCommand(text, "delete", botUsername) then DeleteCommand
    else if IsCommand(text, "edit", botUsername) then EditCommand
    else NoHandler
  }

  /**
   * A text message and its effect on the store. `/start` gets or creates the sender;
   * `/help`, `/created_tasks` and `/mytasks` only read. The creation phrases win over
   * the four commands registered after their filter, and lose to the three before it.
   */
  function HandleText(st: Store, sender: Sender, text: Option<string>, now: Instant,
                      botUsername: string, resolve: string -> Option<TaskId>): (r: Store)
    requires now.Valid()
    ensures IsCommand(text, "start", botUsername) ==> r == GetOrCreateUser(st, sender).0
    ensures IsCommand(text, "help", botUsername) || IsCommand(text, "created_tasks", botUsername) ==> r == st
    ensures
      && TriggersCreation(text) && !IsCommand(text, "start", botUsername)
      && !IsCommand(text, "help", botUsername) && !IsCommand(text, "created_tasks", botUsername)
      ==> r == ProcessTaskCreation(st, sender, text.value, now).0
    ensures !TriggersCreation(text) && IsCommand(text, "mytasks", botUsername) ==> r == st
    ensures !TriggersCreation(text) && IsCommand(text, "assign", botUsername) ==>
      r == AssignTask(st, sender, text.value, resolve).0
    ensures !TriggersCreation(text) && IsCommand(text, "delete", botUsername) ==>
      r == DeleteTask(st, sender, text.value, resolve).0
    ensures !TriggersCreation(text) && IsCommand(text, "edit", botUsername) ==>
      r == EditTask(st, sender, text.value, resolve).0
    ensures !TriggersCreation(text) && (forall k :: 0 <= k < |CommandNames| ==> !IsCommand(text, CommandNames[k], botUsername)) ==>
      r == st
    ensures r.tasks != st.tasks ==>
      || TriggersCreation(text) || IsCommand(text, "assign", botUsername)
      || IsCommand(text, "delete", botUsername) || IsCommand(text, "edit", botUsername)
  {
    match Route(text, botUsername)
    case StartCommand => GetOrCreateUser(st, sender).0
    case CreateTask => ProcessTaskCreation(st, sender, text.value, now).0
    case AssignCommand => AssignTask(st, sender, text.value, resolve).0
    case DeleteCommand => DeleteTask(st, sender, text.value, resolve).0
    case EditCommand => EditTask(st, sender, text.value, resolve).0
    case _ => st
  }

  // ---------------------------------------------------------------- commands

  /** `st2` differs from `st` in task `k` alone, which is now `t`. */
  ghost predicate OnlyTaskChanged(st: Store, st2: Store, k: TaskId, t: Task) {
    && k in st.tasks
    && st2 == st.(tasks := st.tasks[k := t])
  }

  /** The task the id token resolves to, when the sender is the stored creator of that task. */
  predicate OwnsTask(st: Store, sender: Sender, key: Option<TaskId>) {
    && KnownSender(st, sender).Some?
    && key.Some? && key.value in st.tasks
    && st.tasks[key.value].creatorId == KnownSender(st, sender).value.id
  }

  /**
   * The guard chain shared by the three commands once the arguments are parsed:
   * sender known, task found, sender is its creator.
   */
  function OwnershipGuard(st: Store, sender: Sender, key: Option<TaskId>): (r: Reply)
    ensures r == Done <==> OwnsTask(st, sender, key)
    ensures r in {UnknownSender, TaskNotFound, NotCreator, Done}
    ensures r == UnknownSender <==> KnownSender(st, sender).None?
    ensures r == TaskNotFound <==> KnownSender(st, sender).Some? && (key.None? || key.value !in st.tasks)
    ensures r == NotCreator <==>
      && KnownSender(st, sender).Some? && key.Some? && key.value in st.tasks
      && st.tasks[key.value].creatorId != KnownSender(st, sender).value.id
  {
    match KnownSender(st, sender)
    case None => UnknownSender
    case Some(me) =>
      if key.None? || key.value !in st.tasks then TaskNotFound
      else if st.tasks[key.value].creatorId != me.id then NotCreator
      else Done
  }

  /**
   * `/assign <id> @user`: exactly three whitespace-separated tokens; every leading
   * '@' is stripped from the handle. `resolve` is the database's match of the id
   * token against task ids.
   */
  function AssignTask(st: Store, sender: Sender, text: string, resolve: string -> Option<TaskId>): (r: (Store, Reply))
    ensures r.1 != Done ==> r.0 == st
    ensures r.1 == BadFormat <==> |SplitWhitespace(text, -1)| != 3
    ensures r.1 == Done <==>
      var args := SplitWhitespace(text, -1);
      && |args| == 3
      && OwnsTask(st, sender, resolve(args[1]))
      && UserByUsername(st.users, LStripChar(args[2], '@')).Some?
    ensures r.1 == UnknownAssignee <==>
      var args := SplitWhitespace(text, -1);
      && |args| == 3
      && OwnsTask(st, sender, resolve(args[1]))
      && UserByUsername(st.users, LStripChar(args[2], '@')).None?
    ensures var args := SplitWhitespace(text, -1);
      |args| == 3 && !OwnsTask(st, sender, resolve(args[1])) ==> r.1 == OwnershipGuard(st, sender, resolve(args[1]))
    ensures r.1 == Done ==>
      var args := SplitWhitespace(text, -1);
      var k := resolve(args[1]).value;
      var assignee := UserByUsername(st.users, LStripChar(args[2], '@')).value;
      OnlyTaskChanged(st, r.0, k, st.tasks[k].(assigneeId := Some(assignee.id)))
  {
    var args := SplitWhitespace(text, -1);
    if |args| != 3 then (st, BadFormat)
    else
      var key := resolve(args[1]);
      var guard := OwnershipGuard(st, sender, key);
      if guard != Done then (st, guard)
      else
        match UserByUsername(st.users, LStripChar(args[2], '@'))
        case None => (st, UnknownAssignee)
        case Some(assignee) =>
          var k := key.value;
          (st.(tasks := st.tasks[k := st.tasks[k].(assigneeId := Some(assignee.id))]), Done)
  }

  /** `/delete <id>`: `split(maxsplit=1)` must give two parts; the id token is the whole rest. */
  function DeleteTask(st: Store, sender: Sender, text: string, resolve: string -> Option<TaskId>): (r: (Store, Reply))
    ensures r.1 != Done ==> r.0 == st
    ensures r.1 == BadFormat <==> |SplitWhitespace(text, 1)| != 2
    ensures r.1 == Done <==>
      var args := SplitWhitespace(text, 1);
      |args| == 2 && OwnsTask(st, sender, resolve(args[1]))
    ensures var args := SplitWhitespace(text, 1);
      r.1 != BadFormat ==> r.1 == OwnershipGuard(st, sender, resolve(args[1]))
    ensures r.1 == Done ==>
      var k := resolve(SplitWhitespace(text, 1)[1]).value;
      && k in st.tasks
      && r.0 == st.(tasks := st.tasks - {k})
  {
    var args := SplitWhitespace(text, 1);
    if |args| != 2 then (st, BadFormat)
    else
      var key := resolve(args[1]);
      var guard := OwnershipGuard(st, sender, key);
      if guard != Done then (st, guard)
      else (st.(tasks := st.tasks - {key.value}), Done)
  }

  /** `/edit <id> <title>`: `split(maxsplit=2)` must give three parts; the new title is the whole rest. */
  function EditTask(st: Store, sender: Sender, text: string, resolve: string -> Option<TaskId>): (r: (Store, Reply))
    ensures r.1 != Done ==> r.0 == st
    ensures r.1 == BadFormat <==> |SplitWhitespace(text, 2)| != 3
    ensures r.1 == Done <==>
      var args := SplitWhitespace(text, 2);
      |args| == 3 && OwnsTask(st, sender, resolve(args[1]))
    ensures var args := SplitWhitespace(text, 2);
      r.1 != BadFormat ==> r.1 == OwnershipGuard(st, sender, resolve(args[1]))
    ensures r.1 == Done ==>
      var args := SplitWhitespace(text, 2);
      var k := resolve(args[1]).value;
      && IsSuffix(args[2], text)
      && OnlyTaskChanged(st, r.0, k, st.tasks[k].(title := args[2]))
  {
    var args := SplitWhitespace(text, 2);
    if |args| != 3 then (st, BadFormat)
    else
      var key := resolve(args[1]);
      var guard := OwnershipGuard(st, sender, key);
      if guard != Done then (st, guard)
      else
        var k := key.value;
        (st.(tasks := st.tasks[k := st.tasks[k].(title := args[2])]), Done)
  }

  // ---------------------------------------------------------------- invariants

  /** Get-or-create keeps the constraints and adds at most the one user it returns. */
  lemma GetOrCreateKeepsValid(st: Store, sender: Sender)
    requires Valid(st)
    ensures Valid(GetOrCreateUser(st, sender).0)
    ensures GetOrCreateUser(st, sender).1.id in UserIds(GetOrCreateUser(st, sender).0)
    ensures UserIds(GetOrCreateUser(st, sender).0) >= UserIds(st)
  {
    var (st1, me) := GetOrCreateUser(st, sender);
    assert forall i :: 0 <= i < |st.users| ==> st1.users[i] == st.users[i];
    assert UserIds(st1) >= UserIds(st) by {
      forall id | id in UserIds(st) ensures id in UserIds(st1) {
        var i :| 0 <= i < |st.users| && st.users[i].id == id;
        assert st1.users[i].id == id;
      }
    }
    var i :| 0 <= i < |st1.users| && st1.users[i] == me;
    assert me.id in UserIds(st1);
  }

  /** Inserting a task under the next id whose creator and assignee are stored users keeps the constraints. */
  lemma InsertKeepsValid(st: Store, t: Task)
    requires Valid(st)
    requires t.creatorId in UserIds(st)
    requires t.assigneeId.Some? ==> t.assigneeId.value in UserIds(st)
    ensures st.nextTaskId !in st.tasks
    ensures Valid(st.(tasks := st.tasks[st.nextTaskId := t], nextTaskId := st.nextTaskId + 1))
  {
  }

  /** Replacing a task by one with stored creator and assignee keeps the constraints. */
  lemma ReplaceKeepsValid(st: Store, k: TaskId, t: Task)
    requires Valid(st) && k in st.tasks
    requires t.creatorId in UserIds(st)
    requires t.assigneeId.Some? ==> t.assigneeId.value in UserIds(st)
    ensures Valid(st.(tasks := st.tasks[k := t]))
  {
    assert UserIds(st.(tasks := st.tasks[k := t])) == UserIds(st);
  }

  /** A user found by a lookup is a stored user. */
  lemma FoundUserIsStored(st: Store, u: User)
    requires u in st.users
    ensures u.id in UserIds(st)
  {
    var i :| 0 <= i < |st.users| && st.users[i] == u;
  }

  /** Task creation keeps the constraints, and the new id was not in use. */
  lemma CreationKeepsValid(st: Store, sender: Sender, text: string, now: Instant)
    requires Valid(st) && now.Valid()
    ensures Valid(ProcessTaskCreation(st, sender, text, now).0)
    ensures var r := ProcessTaskCreation(st, sender, text, now); r.1.Some? ==> r.1.value !in st.tasks
  {
    GetOrCreateKeepsValid(st, sender);
    var (st1, me) := GetOrCreateUser(st, sender);
    var r := ProcessTaskCreation(st, sender, text, now);
    if r.1.Some? {
      var t := r.0.tasks[r.1.value];
      if t.assigneeId.Some? {
        var i :| 0 <= i < |r.0.users| && r.0.users[i].id == t.assigneeId.value;
        assert r.0.users == st1.users;
        assert t.assigneeId.value in UserIds(st1);
      }
      InsertKeepsValid(st1, t);
      assert r.0 == st1.(tasks := st1.tasks[st1.nextTaskId := t], nextTaskId := st1.nextTaskId + 1);
    }
  }

  /** The new task is listed among the sender's created tasks, next to the earlier ones. */
  lemma CreationListedForCreator(st: Store, sender: Sender, text: string, now: Instant)
    requires Valid(st) && now.Valid()
    ensures var r := ProcessTaskCreation(st, sender, text, now);
      var me := GetOrCreateUser(st, sender).1;
      r.1.Some? ==> CreatedBy(r.0, me.id) == CreatedBy(st, me.id) + {r.1.value}
  {
    CreationKeepsValid(st, sender, text, now);
  }

  /** Setting task `k`'s assignee to `a` moves it between assignee lists only. */
  lemma ReassignLists(st: Store, k: TaskId, a: UserId)
    requires k in st.tasks
    ensures var st2 := st.(tasks := st.tasks[k := st.tasks[k].(assigneeId := Some(a))]);
      && AssignedTo(st2, a) == AssignedTo(st, a) + {k}
      && (forall u :: u != a ==> AssignedTo(st2, u) == AssignedTo(st, u) - {k})
      && (forall u :: CreatedBy(st2, u) == CreatedBy(st, u))
  {
  }

  /** `/assign` keeps the constraints: the new assignee is a stored user. */
  lemma AssignKeepsValid(st: Store, sender: Sender, text: string, resolve: string -> Option<TaskId>)
    requires Valid(st)
    ensures Valid(AssignTask(st, sender, text, resolve).0)
  {
    var r := AssignTask(st, sender, text, resolve);
    if r.1 == Done {
      var args := SplitWhitespace(text, -1);
      var k := resolve(args[1]).value;
      var assignee := UserByUsername(st.users, LStripChar(args[2], '@')).value;
      FoundUserIsStored(st, assignee);
      ReplaceKeepsValid(st, k, st.tasks[k].(assigneeId := Some(assignee.id)));
    }
  }

  /**
   * A successful `/assign` moves the task into the new assignee's list and out of
   * every other user's list, and changes nobody's created list.
   */
  lemma AssignMovesTask(st: Store, sender: Sender, text: string, resolve: string -> Option<TaskId>)
    requires AssignTask(st, sender, text, resolve).1 == Done
    ensures var r := AssignTask(st, sender, text, resolve);
      var args := SplitWhitespace(text, -1);
      var k := resolve(args[1]).value;
      var a := UserByUsername(st.users, LStripChar(args[2], '@')).value.id;
      && AssignedTo(r.0, a) == AssignedTo(st, a) + {k}
      && (forall u :: u != a ==> AssignedTo(r.0, u) == AssignedTo(st, u) - {k})
      && (forall u :: CreatedBy(r.0, u) == CreatedBy(st, u))
  {
    var args := SplitWhitespace(text, -1);
    ReassignLists(st, resolve(args[1]).value, UserByUsername(st.users, LStripChar(args[2], '@')).value.id);
  }

  /** `/delete` keeps the constraints. */
  lemma DeleteKeepsValid(st: Store, sender: Sender, text: string, resolve: string -> Option<TaskId>)
    requires Valid(st)
    ensures Valid(DeleteTask(st, sender, text, resolve).0)
  {
    var r := DeleteTask(st, sender, text, resolve);
    assert UserIds(r.0) == UserIds(st);
  }

  /** A successful `/delete` removes the task from every listing, and it was the sender's own. */
  lemma DeleteRemovesTask(st: Store, sender: Sender, text: string, resolve: string -> Option<TaskId>)
    requires DeleteTask(st, sender, text, resolve).1 == Done
    ensures var r := DeleteTask(st, sender, text, resolve);
      var k := resolve(SplitWhitespace(text, 1)[1]).value;
      && k in CreatedBy(st, KnownSender(st, sender).value.id)
      && (forall u :: AssignedTo(r.0, u) == AssignedTo(st, u) - {k})
      && (forall u :: CreatedBy(r.0, u) == CreatedBy(st, u) - {k})
  {
  }

  /** Changing task `k`'s title changes no listing. */
  lemma RetitleLists(st: Store, k: TaskId, title: string)
    requires k in st.tasks
    ensures var st2 := st.(tasks := st.tasks[k := st.tasks[k].(title := title)]);
      && (forall u :: AssignedTo(st2, u) == AssignedTo(st, u))
      && (forall u :: CreatedBy(st2, u) == CreatedBy(st, u))
  {
  }

  /** `/edit` keeps the constraints and leaves every listing as it was. */
  lemma EditKeepsValidAndListings(st: Store, sender: Sender, text: string, resolve: string -> Option<TaskId>)
    requires Valid(st)
    ensures var r := EditTask(st, sender, text, resolve);
      && Valid(r.0)
      && (forall u :: AssignedTo(r.0, u) == AssignedTo(st, u))
      && (forall u :: CreatedBy(r.0, u) == CreatedBy(st, u))
  {
    var r := EditTask(st, sender, text, resolve);
    if r.1 == Done {
      var args := SplitWhitespace(text, 2);
      var k := resolve(args[1]).value;
      RetitleLists(st, k, args[2]);
      ReplaceKeepsValid(st, k, st.tasks[k].(title := args[2]));
    }
  }

  /** Whatever text arrives, the store keeps its constraints. */
  lemma HandleTextKeepsValid(st: Store, sender: Sender, text: Option<string>, now: Instant,
                             botUsername: string, resolve: string -> Option<TaskId>)
    requires Valid(st) && now.Valid()
    ensures Valid(HandleText(st, sender, text, now, botUsername, resolve))
  {
    match Route(text, botUsername)
    case StartCommand => GetOrCreateKeepsValid(st, sender);
    case CreateTask => CreationKeepsValid(st, sender, text.value, now);
    case AssignCommand => AssignKeepsValid(st, sender, text.value, resolve);
    case DeleteCommand => DeleteKeepsValid(st, sender, text.value, resolve);
    case EditCommand => EditKeepsValidAndListings(st, sender, text.value, resolve);
    case _ =>
  }

  // ---------------------------------------------------------------- listings

  /** `/mytasks`: nothing for an unknown sender, else the tasks assigned to the sender. */
  function MyTasks(st: Store, sender: Sender): (r: Option<set<TaskId>>)
    ensures r.None? <==> KnownSender(st, sender).None?
    ensures r.Some? ==> forall k :: k in r.value <==>
      k in st.tasks && st.tasks[k].assigneeId == Some(KnownSender(st, sender).value.id)
  {
    match KnownSender(st, sender)
    case None => None
    case Some(me) => Some(AssignedTo(st, me.id))
  }

  /** `/created_tasks`: nothing for an unknown sender, else the tasks the sender created. */
  function CreatedTasks(st: Store, sender: Sender): (r: Option<set<TaskId>>)
    ensures r.None? <==> KnownSender(st, sender).None?
    ensures r.Some? ==> forall k :: k in r.value <==>
      k in st.tasks && st.tasks[k].creatorId == KnownSender(st, sender).value.id
  {
    match KnownSender(st, sender)
    case None => None
    case Some(me) => Some(CreatedBy(st, me.id))
  }
}

=== FILE: config.dfy ===
/**
 * The settings read from the environment at start-up: `DATABASE_URL` with its
 * default and `ADMIN_IDS`, a comma-separated list of integers.
 */
module Configuration {
  import opened Wrappers
  import opened Text

  const DefaultDatabaseUrl: string := "sqlite:///tasks.db"

  /** The process environment once `.env` has been loaded: variable name to value. */
  type Environment = map<string, string>

  /** `os.getenv(name)`. */
  function Getenv(env: Environment, name: string): Option<string> {
    if name in env then Some(env[name]) else None
  }

  /** The second argument of `os.getenv(name, default)`: the value read, or `default` when unset. */
  function OrDefault(value: Option<string>, default: string): string {
    match value
    case Some(v) => v
    case None => default
  }

  // ---------------------------------------------------------------- int()

  predicate IsSign(c: char) {
    c == '+' || c == '-'
  }

  /**
   * The ASCII information separators U+001C..U+001F: `str.isspace()` holds of them,
   * but `int()` does not skip them.
   */
  predicate IsInfoSeparator(c: char) {
    '\U{1C}' <= c <= '\U{1F}'
  }

  /** The whitespace `int()` skips around a literal. */
  predicate IsIntSpace(c: char) {
    IsSpace(c) && !IsInfoSeparator(c)
  }

  predicate AllIntSpace(s: string) {
    forall i :: 0 <= i < |s| ==> IsIntSpace(s[i])
  }

  /** An integer literal as `int()` reads it: an optional sign and one or more digits. */
  predicate IsNumeral(t: string) {
    || (|t| > 1 && IsSign(t[0]) && AllDigits(t[1..]))
    || (|t| > 0 && AllDigits(t))
  }

  /** The value of an integer literal. */
  function NumeralValue(t: string): int
    requires IsNumeral(t)
  {
    if IsSign(t[0]) then
      var v: int := DigitsValue(t[1..]);
      if t[0] == '-' then -v else v
    else DigitsValue(t)
  }

  /**
   * Python's `int(s)` on a str: optional surrounding whitespace, an optional sign
   * and one or more digits; `None` where it raises ValueError. Non-ASCII whitespace
   * is skipped like a space; an information separator anywhere is an error.
   */
  function ParseInt(s: string): (r: Option<int>)
    ensures AllSpace(s) ==> r.None?
    ensures r.Some? ==> forall i :: 0 <= i < |s| ==> !IsInfoSeparator(s[i])
  {
    if exists i :: 0 <= i < |s| && IsInfoSeparator(s[i]) then None
    else
      var t := Strip(s);
      if IsNumeral(t) then Some(NumeralValue(t)) else None
  }

  /** A literal is signs and digits, and ends in a digit. */
  lemma NumeralChars(t: string)
    requires IsNumeral(t)
    ensures forall i :: 0 <= i < |t| ==> IsDigit(t[i]) || IsSign(t[i])
    ensures IsDigit(t[|t| - 1])
  {
    if IsSign(t[0]) && |t| > 1 {
      forall i | 1 <= i < |t| ensures IsDigit(t[i]) {
        assert t[1..][i - 1] == t[i];
      }
    }
  }

  /** `int()` accepts skipped whitespace, a literal and skipped whitespace, and reads the literal. */
  lemma ParseIntAccepts(s: string, a: int, b: int)
    requires 0 <= a < b <= |s|
    requires AllIntSpace(s[..a]) && AllIntSpace(s[b..]) && IsNumeral(s[a..b])
    ensures ParseInt(s) == Some(NumeralValue(s[a..b]))
  {
    var t := s[a..b];
    NumeralChars(t);
    forall i | 0 <= i < |s| ensures !IsInfoSeparator(s[i]) {
      if i < a {
        assert s[..a][i] == s[i];
      } else if i >= b {
        assert s[b..][i - b] == s[i];
      } else {
        assert t[i - a] == s[i];
      }
    }
    assert t[0] == s[a] && t[|t| - 1] == s[b - 1];
    StripPadded(s, a, b);
  }

  /** Whatever `int()` accepts has that shape, and its value is the literal's. */
  lemma ParseIntShape(s: string)
    requires ParseInt(s).Some?
    ensures exists a, b ::
      && 0 <= a < b <= |s| && AllIntSpace(s[..a]) && AllIntSpace(s[b..]) && IsNumeral(s[a..b])
      && ParseInt(s) == Some(NumeralValue(s[a..b]))
    ensures forall i :: 0 <= i < |s| ==> IsDigit(s[i]) || IsSign(s[i]) || IsIntSpace(s[i])
  {
    var a, b :| 0 <= a <= b <= |s| && Strip(s) == s[a..b] && AllSpace(s[..a]) && AllSpace(s[b..]);
    forall i | 0 <= i < a ensures IsIntSpace(s[..a][i]) {
      assert s[..a][i] == s[i];
    }
    forall i | 0 <= i < |s| - b ensures IsIntSpace(s[b..][i]) {
      assert s[b..][i] == s[b + i];
    }
    var lit := s[a..b];
    NumeralChars(lit);
    forall i | 0 <= i < |s| ensures IsDigit(s[i]) || IsSign(s[i]) || IsIntSpace(s[i]) {
      if i < a {
        assert s[..a][i] == s[i];
      } else if i >= b {
        assert s[b..][i - b] == s[i];
      } else {
        assert lit[i - a] == s[i];
      }
    }
  }

  /** A character other than a digit, a sign or skipped whitespace makes `int()` fail. */
  lemma ParseIntRejectsStray(s: string, i: int)
    requires 0 <= i < |s| && !IsDigit(s[i]) && !IsSign(s[i]) && !IsIntSpace(s[i])
    ensures ParseInt(s).None?
  {
    if ParseInt(s).Some? {
      ParseIntShape(s);
    }
  }

  /** A string of zeros reads as 0. */
  lemma {:induction false} ZerosValue(z: string)
    requires forall i :: 0 <= i < |z| ==> z[i] == '0'
    ensures AllDigits(z) && DigitsValue(z) == 0
    decreases |z|
  {
    if |z| > 0 {
      ZerosValue(z[..|z| - 1]);
    }
  }

  /** Leading zeros do not change the value of a digit string, so `int("007") == 7`. */
  lemma {:induction false} LeadingZerosIgnored(z: string, ds: string)
    requires forall i :: 0 <= i < |z| ==> z[i] == '0'
    requires AllDigits(ds)
    ensures AllDigits(z + ds) && DigitsValue(z + ds) == DigitsValue(ds)
    decreases |ds|
  {
    if |ds| == 0 {
      assert z + ds == z;
      ZerosValue(z);
    } else {
      var w := z + ds;
      assert w[..|w| - 1] == z + ds[..|ds| - 1];
      LeadingZerosIgnored(z, ds[..|ds| - 1]);
    }
  }

  function DigitChar(d: nat): (c: char)
    requires d < 10
    ensures IsDigit(c) && DigitValue(c) == d
  {
    ('0' as int + d) as char
  }

  /** `str(n)` for a natural number: its decimal digits, most significant first. */
  function ShowNat(n: nat): (s: string)
    ensures |s| > 0 && AllDigits(s)
    ensures DigitsValue(s) == n
  {
    if n < 10 then [DigitChar(n)]
    else
      var s := ShowNat(n / 10) + [DigitChar(n % 10)];
      assert s[..|s| - 1] == ShowNat(n / 10);
      s
  }

  /** `str(n)`. */
  function ShowInt(n: int): (s: string)
    ensures |s| > 0 && !IsSpace(s[0]) && !IsSpace(s[|s| - 1]) && ',' !in s
  {
    if n < 0 then "-" + ShowNat(-n) else ShowNat(n)
  }

  /** `int(str(n)) == n`. */
  lemma {:induction false} ParseShowInt(n: int)
    ensures ParseInt(ShowInt(n)) == Some(n)
  {
    var s := ShowInt(n);
    if n < 0 {
      assert s[1..] == ShowNat(-n);
    }
    assert s[..0] == "" && s[|s|..] == "" && s[0..|s|] == s;
    ParseIntAccepts(s, 0, |s|);
  }

  // ---------------------------------------------------------------- ADMIN_IDS

  /** The segments that are kept by `if id`: the non-empty ones, in order. */
  function NonEmpty(segs: seq<string>): (r: seq<string>)
    ensures forall k :: 0 <= k < |r| ==> r[k] != ""
    ensures (forall k :: 0 <= k < |segs| ==> segs[k] != "") ==> r == segs
  {
    if |segs| == 0 then []
    else if segs[0] == "" then NonEmpty(segs[1..])
    else [segs[0]] + NonEmpty(segs[1..])
  }

  /** The filter keeps a single piece iff it is non-empty. */
  lemma NonEmptySingle(x: string)
    ensures NonEmpty([x]) == (if x == "" then [] else [x])
  {
    assert [x][1..] == [];
  }

  /** The filter works piece by piece: filtering a concatenation concatenates the filtered halves. */
  lemma {:induction false} NonEmptyAppend(a: seq<string>, b: seq<string>)
    ensures NonEmpty(a + b) == NonEmpty(a) + NonEmpty(b)
    decreases |a|
  {
    if |a| > 0 {
      assert (a + b)[0] == a[0] && (a + b)[1..] == a[1..] + b;
      NonEmptyAppend(a[1..], b);
      if a[0] != "" {
        assert [a[0]] + (NonEmpty(a[1..]) + NonEmpty(b)) == ([a[0]] + NonEmpty(a[1..])) + NonEmpty(b);
      }
    } else {
      assert a + b == b;
    }
  }

  /** `[int(x) for x in segs]`: `None` as soon as one of them is not an integer literal. */
  function ParseAll(segs: seq<string>): (r: Option<seq<int>>)
    ensures r.Some? <==> forall k :: 0 <= k < |segs| ==> ParseInt(segs[k]).Some?
    ensures r.Some? ==> |r.value| == |segs| && forall k :: 0 <= k < |segs| ==> ParseInt(segs[k]) == Some(r.value[k])
  {
    if |segs| == 0 then Some([])
    else
      var head := ParseInt(segs[0]);
      var tail := ParseAll(segs[1..]);
      ParseAllStep(segs, ParseInt, head, tail);
      if head.None? || tail.None? then None else Some([head.value] + tail.value)
  }

  /** One step of the list: the head parsed on its own, the tail as a list. */
  lemma ParseAllStep(segs: seq<string>, parse: string -> Option<int>, head: Option<int>, tail: Option<seq<int>>)
    requires |segs| > 0 && head == parse(segs[0])
    requires tail.Some? <==> forall k :: 0 <= k < |segs| - 1 ==> parse(segs[1..][k]).Some?
    requires tail.Some? ==> |tail.value| == |segs| - 1 && forall k :: 0 <= k < |segs| - 1 ==> parse(segs[1..][k]) == Some(tail.value[k])
    ensures head.Some? && tail.Some? <==> forall k :: 0 <= k < |segs| ==> parse(segs[k]).Some?
    ensures head.Some? && tail.Some? ==>
      var r := [head.value] + tail.value;
      |r| == |segs| && forall k :: 0 <= k < |segs| ==> parse(segs[k]) == Some(r[k])
  {
    assert forall k :: 1 <= k < |segs| ==> segs[k] == segs[1..][k - 1];
  }

  /**
   * `ADMIN_IDS`: the value of the variable (empty when unset) split on ',', empty
   * segments dropped, each other one read by `int`; `None` where `int` raises.
   */
  function AdminIds(value: Option<string>): (r: Option<seq<int>>)
    ensures value.None? || value == Some("") ==> r == Some([])
    ensures var segs := NonEmpty(Split(OrDefault(value, ""), ','));
      && (r.None? <==> exists k :: 0 <= k < |segs| && ParseInt(segs[k]).None?)
      && (r.Some? ==> |r.value| == |segs| && forall k :: 0 <= k < |segs| ==> ParseInt(segs[k]) == Some(r.value[k]))
  {
    var segs := NonEmpty(Split(OrDefault(value, ""), ','));
    if OrDefault(value, "") == "" then
      assert IndexOf("", ',').None?;
      assert segs == NonEmpty([""]) == [];
      ParseAll(segs)
    else
      ParseAll(segs)
  }

  /** The list written back in the form `ADMIN_IDS` is read in: `",".join(map(str, ids))`. */
  function FormatAdminIds(ids: seq<int>): string {
    Join(seq(|ids|, i requires 0 <= i < |ids| => ShowInt(ids[i])), ',')
  }

  /** Splitting after a separator-free prefix and a separator yields that prefix first. */
  lemma SplitAfterFirst(a: string, sep: char, b: string)
    requires sep !in a
    ensures Split(a + [sep] + b, sep) == [a] + Split(b, sep)
  {
    var s := a + [sep] + b;
    assert s[..|a|] == a && s[|a| + 1..] == b;
  }

  /** `split` undoes `join` when no piece contains the separator. */
  lemma {:induction false} SplitJoin(parts: seq<string>, sep: char)
    requires |parts| > 0
    requires forall k :: 0 <= k < |parts| ==> sep !in parts[k]
    ensures Split(Join(parts, sep), sep) == parts
    decreases |parts|
  {
    if |parts| > 1 {
      SplitJoin(parts[1..], sep);
      SplitAfterFirst(parts[0], sep, Join(parts[1..], sep));
      assert parts == [parts[0]] + parts[1..];
    } else {
      assert IndexOf(parts[0], sep).None?;
    }
  }

  /** Reading back a written admin list gives the same ids in the same order. */
  lemma AdminIdsRoundTrip(ids: seq<int>)
    ensures AdminIds(Some(FormatAdminIds(ids))) == Some(ids)
  {
    if |ids| > 0 {
      var shown := seq(|ids|, i requires 0 <= i < |ids| => ShowInt(ids[i]));
      SplitJoin(shown, ',');
      forall k | 0 <= k < |ids| ensures ParseInt(shown[k]) == Some(ids[k]) {
        ParseShowInt(ids[k]);
      }
      var r := AdminIds(Some(FormatAdminIds(ids)));
      assert r.Some?;
      assert r.value == ids;
    }
  }

  // ---------------------------------------------------------------- Config

  datatype Config = Config(botToken: Option<string>, databaseUrl: string, adminIds: seq<int>)

  /** `DATABASE_URL`: the variable's value when set (even if empty), the SQLite file otherwise. */
  function DatabaseUrl(value: Option<string>): (r: string)
    ensures value.None? ==> r == DefaultDatabaseUrl
    ensures value.Some? ==> r == value.value
  {
    OrDefault(value, DefaultDatabaseUrl)
  }

  /** `Config()`: `None` where building `ADMIN_IDS` raises, which stops the program at import. */
  function LoadConfig(env: Environment): (r: Option<Config>)
    ensures r.None? <==> AdminIds(Getenv(env, "ADMIN_IDS")).None?
    ensures r.Some? ==> r.value.botToken == Getenv(env, "BOT_TOKEN")
    ensures r.Some? ==> r.value.databaseUrl == (if "DATABASE_URL" in env then env["DATABASE_URL"] else DefaultDatabaseUrl)
    ensures r.Some? ==> AdminIds(Getenv(env, "ADMIN_IDS")) == Some(r.value.adminIds)
  {
    match AdminIds(Getenv(env, "ADMIN_IDS"))
    case None => None
    case Some(ids) => Some(Config(Getenv(env, "BOT_TOKEN"), DatabaseUrl(Getenv(env, "DATABASE_URL")), ids))
  }
}

=== FILE: extraction.dfy ===
/**
 * The natural-language task extractor: `extract_task_info` turns free text into
 * a title, a description, an optional due date and a priority, and
 * `extract_user_mention` finds the first `@handle`.
 */
module TaskExtraction {
  import opened Wrappers
  import opened Text
  import opened Patterns

  datatype Priority = Low | Medium | High

  /** The last day `datetime` can represent, 9999-12-31, as a day ordinal. */
  const MaxOrdinal: int := 3652059
  const MicrosPerDay: int := 86400000000
  /** The largest day count a `timedelta` can hold. */
  const MaxTimedeltaDays: int := 999999999

  /**
   * A `datetime`: its day ordinal (`date.toordinal()`, 1 is 0001-01-01) and the
   * microseconds elapsed since midnight.
   */
  datatype Instant = Instant(ordinal: int, micros: int) {
    predicate Valid() {
      1 <= ordinal <= MaxOrdinal && 0 <= micros < MicrosPerDay
    }
  }

  /**
   * `t + timedelta(days=days)`; `None` where Python raises OverflowError, because
   * either the timedelta or the resulting date is out of range.
   */
  function AddDays(t: Instant, days: nat): (r: Option<Instant>)
    requires t.Valid()
    ensures r.Some? <==> t.ordinal + days <= MaxOrdinal
    ensures r.Some? ==> r.value.Valid() && r.value.ordinal - t.ordinal == days && r.value.micros == t.micros
  {
    if days > MaxTimedeltaDays || t.ordinal + days > MaxOrdinal then None
    else Some(Instant(t.ordinal + days, t.micros))
  }

  // ---------------------------------------------------------------- title

  /**
   * The title is `text.split('.')[0].strip()`; the description is the other
   * pieces rejoined with '.' and stripped, or "" when there is no '.'.
   */
  function SplitTitle(text: string): (r: (string, string))
    ensures '.' !in r.0
    ensures IndexOf(text, '.').None? ==> r.0 == Strip(text) && r.1 == ""
    ensures IndexOf(text, '.').Some? ==>
      var i := IndexOf(text, '.').value;
      r.0 == Strip(text[..i]) && r.1 == Strip(text[i + 1..])
  {
    var parts := Split(text, '.');
    (Strip(parts[0]), if |parts| > 1 then Strip(Join(parts[1..], '.')) else "")
  }

  /**
   * Nothing keeps the title non-empty: it is "" exactly when the text before the
   * first '.' (the whole text when there is none) is all whitespace.
   */
  lemma TitleEmptyIff(text: string)
    ensures var head := match IndexOf(text, '.') case Some(i) => text[..i] case None => text;
      SplitTitle(text).0 == "" <==> AllSpace(head)
  {
    match IndexOf(text, '.')
    case Some(i) => StripEmptyIff(text[..i]);
    case None => StripEmptyIff(text);
  }

  // ---------------------------------------------------------------- due date

  /** What a matching date pattern yields. */
  datatype Resolution =
    | NoDate                   // the pattern is recognised but gives no date
    | FixedDays(days: nat)     // now + days
    | DaysPerUnit(perUnit: nat) // now + perUnit * N, N the number the pattern captured

  datatype DateRule = DateRule(pattern: Pattern, resolution: Resolution)

  /** The date patterns in the order they are tried; the first one that matches decides. */
  const DateRules: seq<DateRule> := [
    DateRule(NumberedDay("к ", "ому"), NoDate),
    DateRule(NumberedDay("до ", "ого"), NoDate),
    DateRule(Literal("завтра"), FixedDays(1)),
    DateRule(Literal("на следующей неделе"), FixedDays(7)),
    DateRule(Count("через ", ["день", "дня", "дней"]), DaysPerUnit(1)),
    DateRule(Count("через ", ["неделю", "недели", "недель"]), DaysPerUnit(7))
  ]

  /** Date rule `k` matches somewhere in the lower-cased text `s`. */
  predicate RuleMatches(k: nat, s: string)
    requires k < |DateRules|
  {
    Matches(DateRules[k].pattern, s)
  }

  /**
   * The first rule at or after `from` whose pattern matches anywhere in `s`, with
   * the position of its leftmost match; later rules are not consulted.
   */
  function FirstRule(rules: seq<DateRule>, s: string, from: nat): (r: Option<(nat, nat)>)
    requires from <= |rules|
    ensures r.Some? ==> from <= r.value.0 < |rules| && Search(rules[r.value.0].pattern, s) == Some(r.value.1)
    ensures r.Some? ==> forall k :: from <= k < r.value.0 ==> !Matches(rules[k].pattern, s)
    ensures r.None? ==> forall k :: from <= k < |rules| ==> !Matches(rules[k].pattern, s)
    decreases |rules| - from
  {
    if from == |rules| then None
    else
      SearchIsLeftmost(rules[from].pattern, s);
      match Search(rules[from].pattern, s)
      case Some(pos) => Some((from, pos))
      case None => FirstRule(rules, s, from + 1)
  }

  /** The day offset a rule gives when its leftmost match in `s` is at `pos`. */
  function Resolve(rule: DateRule, s: string, pos: nat): Option<nat>
    requires pos <= |s|
  {
    match rule.resolution
    case NoDate => None
    case FixedDays(d) => Some(d)
    case DaysPerUnit(m) =>
      if rule.pattern.Count? && pos + |rule.pattern.lead| <= |s| then
        Some(m * CountValue(s, pos, rule.pattern.lead))
      else None
  }

  /**
   * The due date of `extract_task_info` as a number of days after now: decided by
   * the first date rule that matches the lower-cased text.
   */
  function DueDays(text: string): Option<nat> {
    var s := Lower(text);
    match FirstRule(DateRules, s, 0)
    case None => None
    case Some((k, pos)) => Resolve(DateRules[k], s, pos)
  }

  /**
   * There is no due date exactly when one of the numbered-day patterns matches or
   * when no date pattern matches at all.
   */
  lemma DueDaysAbsent(text: string)
    ensures DueDays(text).None? <==>
      || RuleMatches(0, Lower(text)) || RuleMatches(1, Lower(text))
      || forall k :: 0 <= k < |DateRules| ==> !RuleMatches(k, Lower(text))
  {
    var s := Lower(text);
    var first := FirstRule(DateRules, s, 0);
    if first.Some? {
      var (k, pos) := first.value;
      SearchIsLeftmost(DateRules[k].pattern, s);
      assert RuleMatches(k, s);
      if k >= 2 {
        assert !RuleMatches(0, s) && !RuleMatches(1, s);
        assert DateRules[k].resolution.FixedDays? || DateRules[k].pattern.Count?;
        assert DueDays(text).Some?;
      } else {
        assert DueDays(text).None?;
      }
    }
  }

  /**
   * Pattern order, not text position, decides: when rule `k` is the first rule
   * that matches anywhere, the due date is what rule `k` gives at its leftmost match.
   */
  lemma FirstMatchingRuleDecides(text: string, k: nat)
    requires k < |DateRules|
    requires forall j :: 0 <= j < k ==> !RuleMatches(j, Lower(text))
    requires RuleMatches(k, Lower(text))
    ensures Search(DateRules[k].pattern, Lower(text)).Some?
    ensures DueDays(text) == Resolve(DateRules[k], Lower(text), Search(DateRules[k].pattern, Lower(text)).value)
  {
    var s := Lower(text);
    SearchIsLeftmost(DateRules[k].pattern, s);
    var first := FirstRule(DateRules, s, 0);
    assert first.Some?;
    assert first.value.0 == k by {
      if first.value.0 < k {
        SearchIsLeftmost(DateRules[first.value.0].pattern, s);
        assert RuleMatches(first.value.0, s);
      }
    }
  }

  /** A numbered-day phrase (`к 5 марта`, `до 10 числа`) leaves the task without a due date. */
  lemma NumberedDayGivesNoDate(text: string)
    requires RuleMatches(0, Lower(text)) || RuleMatches(1, Lower(text))
    ensures DueDays(text) == None
  {
    DueDaysAbsent(text);
  }

  /**
   * `завтра` anywhere in the text gives tomorrow unless a numbered-day phrase
   * matched, even when a `через N ...` phrase comes earlier in the text.
   */
  lemma TomorrowGivesOneDay(text: string)
    requires !RuleMatches(0, Lower(text)) && !RuleMatches(1, Lower(text))
    requires Contains(Lower(text), "завтра")
    ensures DueDays(text) == Some(1)
  {
    LiteralMatchesIffContains("завтра", Lower(text));
    FirstMatchingRuleDecides(text, 2);
  }

  /** The search is for a substring, so inflected forms such as `завтрашнему` also mean tomorrow. */
  lemma InflectedTomorrowGivesOneDay(text: string)
    requires !RuleMatches(0, Lower(text)) && !RuleMatches(1, Lower(text))
    requires Contains(Lower(text), "завтрашнему")
    ensures DueDays(text) == Some(1)
  {
    assert OccursAt("завтрашнему", "завтра", 0);
    ContainsTransitive(Lower(text), "завтрашнему", "завтра");
    TomorrowGivesOneDay(text);
  }

  /** `на следующей неделе`, with no earlier rule matching, gives a week from now. */
  lemma NextWeekGivesSevenDays(text: string)
    requires forall j :: 0 <= j < 3 ==> !RuleMatches(j, Lower(text))
    requires Contains(Lower(text), "на следующей неделе")
    ensures DueDays(text) == Some(7)
  {
    LiteralMatchesIffContains("на следующей неделе", Lower(text));
    FirstMatchingRuleDecides(text, 3);
  }

  /** `через N день|дня|дней`, with no earlier rule matching: N days, N from the leftmost such phrase. */
  lemma InDaysGivesCount(text: string, pos: nat)
    requires forall j :: 0 <= j < 4 ==> !RuleMatches(j, Lower(text))
    requires Search(DateRules[4].pattern, Lower(text)) == Some(pos)
    ensures pos + |"через "| <= |Lower(text)|
    ensures DueDays(text) == Some(CountValue(Lower(text), pos, "через "))
  {
    SearchIsLeftmost(DateRules[4].pattern, Lower(text));
    FirstMatchingRuleDecides(text, 4);
  }

  /** `через N неделю|недели|недель`, with no earlier rule matching: 7 * N days, N from the leftmost such phrase. */
  lemma InWeeksGivesSevenTimesCount(text: string, pos: nat)
    requires forall j :: 0 <= j < 5 ==> !RuleMatches(j, Lower(text))
    requires Search(DateRules[5].pattern, Lower(text)) == Some(pos)
    ensures pos + |"через "| <= |Lower(text)|
    ensures DueDays(text) == Some(7 * CountValue(Lower(text), pos, "через "))
  {
    SearchIsLeftmost(DateRules[5].pattern, Lower(text));
    FirstMatchingRuleDecides(text, 5);
  }

  // ---------------------------------------------------------------- priority

  const HighIndicators: seq<string> :=
    ["срочно", "срочная", "важно", "важная", "высокий приоритет", "приоритетная"]
  const LowIndicators: seq<string> :=
    ["низкий приоритет", "не срочно", "когда будет время", "не приоритетная"]

  /** `any(w in s for w in words)`. */
  function AnyContained(s: string, words: seq<string>): (r: bool)
    ensures r <==> exists k :: 0 <= k < |words| && Contains(s, words[k])
  {
    if |words| == 0 then false
    else
      assert forall k :: 1 <= k < |words| ==> words[k] == words[1..][k - 1];
      Contains(s, words[0]) || AnyContained(s, words[1..])
  }

  /** The priority: the high table is consulted first, then the low one; medium otherwise. */
  function PriorityOf(text: string): (p: Priority)
    ensures p == High <==> exists k :: 0 <= k < |HighIndicators| && Contains(Lower(text), HighIndicators[k])
    ensures p == Low <==>
      && (forall k :: 0 <= k < |HighIndicators| ==> !Contains(Lower(text), HighIndicators[k]))
      && (exists k :: 0 <= k < |LowIndicators| && Contains(Lower(text), LowIndicators[k]))
  {
    var s := Lower(text);
    if AnyContained(s, HighIndicators) then High
    else if AnyContained(s, LowIndicators) then Low
    else Medium
  }

  /**
   * `не срочно` and `не приоритетная` contain the high indicators `срочно` and
   * `приоритетная`, so these two "low" phrases always give high priority.
   */
  lemma NegatedPhrasesGiveHigh(text: string)
    requires Contains(Lower(text), "не срочно") || Contains(Lower(text), "не приоритетная")
    ensures PriorityOf(text) == High
  {
    var s := Lower(text);
    if Contains(s, "не срочно") {
      assert OccursAt("не срочно", HighIndicators[0], 3);
      ContainsTransitive(s, "не срочно", HighIndicators[0]);
    } else {
      assert OccursAt("не приоритетная", HighIndicators[5], 3);
      ContainsTransitive(s, "не приоритетная", HighIndicators[5]);
    }
  }

  /** Hence only `низкий приоритет` and `когда будет время` can ever give low priority. */
  lemma LowPriorityPhrases(text: string)
    ensures PriorityOf(text) == Low <==>
      && (forall k :: 0 <= k < |HighIndicators| ==> !Contains(Lower(text), HighIndicators[k]))
      && (Contains(Lower(text), "низкий приоритет") || Contains(Lower(text), "когда будет время"))
  {
    var s := Lower(text);
    assert (exists k :: 0 <= k < |LowIndicators| && Contains(s, LowIndicators[k])) <==>
      || Contains(s, LowIndicators[0]) || Contains(s, LowIndicators[1])
      || Contains(s, LowIndicators[2]) || Contains(s, LowIndicators[3]);
    if Contains(s, "не срочно") || Contains(s, "не приоритетная") {
      NegatedPhrasesGiveHigh(text);
    }
  }

  // ---------------------------------------------------------------- mention

  /** No match of the mention pattern anywhere. */
  lemma MentionAbsent(text: string)
    requires Search(Mention, text).None?
    ensures forall i :: 0 <= i < |text| ==> !MentionAt(text, i)
  {
    forall i | 0 <= i < |text| ensures !MentionAt(text, i) {
      assert !MatchesAt(Mention, text, i);
    }
  }

  /** The leftmost match of the mention pattern and the handle it captures. */
  lemma MentionFound(text: string, i: nat)
    requires Search(Mention, text) == Some(i)
    ensures i < |text| && MentionAt(text, i)
    ensures forall j :: 0 <= j < i ==> !MentionAt(text, j)
    ensures var h := MentionHandle(text, i);
      && |h| > 0 && (forall c :: c in h ==> IsWordChar(c))
      && OccursAt(text, "@" + h, i)
      && (i + 1 + |h| == |text| || !IsWordChar(text[i + 1 + |h|]))
    ensures var h := MentionHandle(text, i);
      exists j ::
        && MentionAt(text, j)
        && (forall m :: 0 <= m < j ==> !MentionAt(text, m))
        && OccursAt(text, "@" + h, j)
        && (j + 1 + |h| == |text| || !IsWordChar(text[j + 1 + |h|]))
  {
    var h := MentionHandle(text, i);
    assert MentionAt(text, i);
    forall j | 0 <= j < i ensures !MentionAt(text, j) {
      assert !MatchesAt(Mention, text, j);
    }
    assert text[i..i + 1 + |h|] == [text[i]] + text[i + 1..i + 1 + |h|];
  }

  /**
   * `extract_user_mention`: the handle captured by the leftmost match of `@(\w+)`
   * in the text as written (not lower-cased).
   */
  function ExtractMention(text: string): (r: Option<string>)
    ensures r.None? <==> forall i :: 0 <= i < |text| ==> !MentionAt(text, i)
    ensures r.Some? ==> |r.value| > 0 && forall c :: c in r.value ==> IsWordChar(c)
    ensures r.Some? ==> exists i ::
      && MentionAt(text, i)
      && (forall j :: 0 <= j < i ==> !MentionAt(text, j))
      && OccursAt(text, "@" + r.value, i)
      && (i + 1 + |r.value| == |text| || !IsWordChar(text[i + 1 + |r.value|]))
  {
    match Search(Mention, text)
    case None =>
      MentionAbsent(text);
      None
    case Some(i) =>
      MentionFound(text, i);
      Some(MentionHandle(text, i))
  }

  // ---------------------------------------------------------------- together

  datatype Draft = Draft(title: string, description: string, due: Option<Instant>, priority: Priority)

  /**
   * `extract_task_info(text)` with the clock read as `now`; `None` where the due
   * date computation raises OverflowError.
   */
  function ExtractTaskInfo(text: string, now: Instant): (r: Option<Draft>)
    requires now.Valid()
    ensures r.None? <==> DueDays(text).Some? && now.ordinal + DueDays(text).value > MaxOrdinal
    ensures r.Some? ==> (r.value.title, r.value.description) == SplitTitle(text)
    ensures r.Some? ==> r.value.priority == PriorityOf(text)
    ensures r.Some? ==> (r.value.due.Some? <==> DueDays(text).Some?)
    ensures r.Some? && r.value.due.Some? ==>
      r.value.due.value.ordinal == now.ordinal + DueDays(text).value && r.value.due.value.micros == now.micros
  {
    var (title, description) := SplitTitle(text);
    match DueDays(text)
    case None => Some(Draft(title, description, None, PriorityOf(text)))
    case Some(d) =>
      match AddDays(now, d)
      case None => None
      case Some(due) => Some(Draft(title, description, Some(due), PriorityOf(text)))
  }
}

=== FILE: patterns.dfy ===
/**
 * The regular expressions of the task extractor, each as an explicit matcher
 * at one position, and `re.search`: the leftmost position where a pattern matches.
 */
module Patterns {
  import opened Wrappers
  import opened Text

  /**
   * The regex shapes the extractor uses:
   *   Literal(w)            the fixed phrase `w`
   *   NumberedDay(lead, x)  `lead(\d{1,2}(?:x)? [А-Яа-я]+)`
   *   Count(lead, units)    `lead(\d+) (?:u1|u2|...)`
   *   Mention               `@(\w+)`
   */
  datatype Pattern =
    | Literal(word: string)
    | NumberedDay(lead: string, suffix: string)
    | Count(lead: string, units: seq<string>)
    | Mention

  /** `k` digits start at `j`. */
  predicate DigitsAt(s: string, j: int, k: nat) {
    0 <= j && j + k <= |s| && forall m :: j <= m < j + k ==> IsDigit(s[m])
  }

  /** The character at `j` is `c`. */
  predicate CharAt(s: string, j: int, c: char) {
    0 <= j < |s| && s[j] == c
  }

  /** ` [А-Яа-я]+` matches at `j`: a space and at least one letter of the class. */
  predicate DayWordAt(s: string, j: int) {
    0 <= j && j + 1 < |s| && s[j] == ' ' && IsCyrillicLetter(s[j + 1])
  }

  /** `k` digits at `j`, then either ` [А-Яа-я]+` or `suffix [А-Яа-я]+`. */
  predicate DigitsThenDayWord(s: string, j: int, k: nat, suffix: string) {
    && DigitsAt(s, j, k)
    && (|| DayWordAt(s, j + k)
        || (OccursAt(s, suffix, j + k) && DayWordAt(s, j + k + |suffix|)))
  }

  /**
   * `lead(\d{1,2}(?:suffix)? [А-Яа-я]+)` matches at `i`: some choice of one or two
   * digits, with or without the suffix, lets the rest of the pattern match.
   */
  predicate NumberedDayAt(s: string, i: int, lead: string, suffix: string) {
    && OccursAt(s, lead, i)
    && (DigitsThenDayWord(s, i + |lead|, 1, suffix) || DigitsThenDayWord(s, i + |lead|, 2, suffix))
  }

  /** The length of the run of digits that starts at `j`. */
  function DigitRun(s: string, j: nat): (n: nat)
    requires j <= |s|
    ensures DigitsAt(s, j, n)
    ensures j + n == |s| || !IsDigit(s[j + n])
    decreases |s| - j
  {
    if j < |s| && IsDigit(s[j]) then 1 + DigitRun(s, j + 1) else 0
  }

  /** One of `units` occurs at `j`. */
  predicate AnyOccursAt(s: string, units: seq<string>, j: int) {
    exists u :: u in units && OccursAt(s, u, j)
  }

  /**
   * `lead(\d+) (?:units)` matches at `i`: `\d+` can only stop where the digits stop,
   * since the character after it must be a space; so the group is the maximal digit run.
   */
  predicate CountAt(s: string, i: int, lead: string, units: seq<string>) {
    && OccursAt(s, lead, i)
    && var n := DigitRun(s, i + |lead|);
       n > 0 && CharAt(s, i + |lead| + n, ' ') && AnyOccursAt(s, units, i + |lead| + n + 1)
  }

  /**
   * The backtracking reading of `lead(\d+) (?:units)` at `i`: the pattern matches
   * with a first group of `k` digits.
   */
  ghost predicate CountGroupAt(s: string, i: int, lead: string, units: seq<string>, k: int) {
    && OccursAt(s, lead, i)
    && k >= 1 && DigitsAt(s, i + |lead|, k)
    && CharAt(s, i + |lead| + k, ' ') && AnyOccursAt(s, units, i + |lead| + k + 1)
  }

  /** `@(\w+)` matches at `i`. */
  predicate MentionAt(s: string, i: int) {
    0 <= i && i + 1 < |s| && s[i] == '@' && IsWordChar(s[i + 1])
  }

  /** The length of the run of word characters that starts at `j`: what greedy `\w+` takes. */
  function WordRun(s: string, j: nat): (n: nat)
    requires j <= |s|
    ensures j + n <= |s|
    ensures forall m :: j <= m < j + n ==> IsWordChar(s[m])
    ensures j + n == |s| || !IsWordChar(s[j + n])
    decreases |s| - j
  {
    if j < |s| && IsWordChar(s[j]) then 1 + WordRun(s, j + 1) else 0
  }

  predicate MatchesAt(p: Pattern, s: string, i: nat) {
    match p
    case Literal(w) => OccursAt(s, w, i)
    case NumberedDay(lead, suffix) => NumberedDayAt(s, i, lead, suffix)
    case Count(lead, units) => i <= |s| && CountAt(s, i, lead, units)
    case Mention => MentionAt(s, i)
  }

  /** `re.search(p, s)` started at `from`: the leftmost position at or after `from` where `p` matches. */
  function SearchFrom(p: Pattern, s: string, from: nat): (r: Option<nat>)
    requires from <= |s|
    ensures r.Some? ==> from <= r.value <= |s| && MatchesAt(p, s, r.value)
    ensures r.Some? ==> forall j :: from <= j < r.value ==> !MatchesAt(p, s, j)
    ensures r.None? ==> forall j :: from <= j <= |s| ==> !MatchesAt(p, s, j)
    decreases |s| - from
  {
    if MatchesAt(p, s, from) then Some(from)
    else if from == |s| then None
    else SearchFrom(p, s, from + 1)
  }

  /** `re.search(p, s)`: the position of the leftmost match, if any. */
  function Search(p: Pattern, s: string): Option<nat> {
    SearchFrom(p, s, 0)
  }

  /** `p` matches somewhere in `s`. */
  predicate Matches(p: Pattern, s: string) {
    exists i :: 0 <= i <= |s| && MatchesAt(p, s, i)
  }

  /** The search finds a match exactly when there is one, and finds the leftmost. */
  lemma SearchIsLeftmost(p: Pattern, s: string)
    ensures Search(p, s).Some? <==> Matches(p, s)
    ensures Search(p, s).Some? ==>
      MatchesAt(p, s, Search(p, s).value) && forall j :: 0 <= j < Search(p, s).value ==> !MatchesAt(p, s, j)
  {
  }

  /** A literal phrase matches exactly when it is a substring. */
  lemma LiteralMatchesIffContains(w: string, s: string)
    ensures Matches(Literal(w), s) <==> Contains(s, w)
  {
    if Contains(s, w) {
      var i :| 0 <= i <= |s| - |w| && OccursAt(s, w, i);
      assert MatchesAt(Literal(w), s, i);
    }
  }

  /**
   * Backtracking cannot give `\d+` fewer digits than the run: a match with a first
   * group of `k` digits exists exactly when the explicit matcher accepts and `k` is
   * the length of the digit run.
   */
  lemma CountGroupIsDigitRun(s: string, i: nat, lead: string, units: seq<string>, k: int)
    requires i + |lead| <= |s|
    ensures CountGroupAt(s, i, lead, units, k) <==> CountAt(s, i, lead, units) && k == DigitRun(s, i + |lead|)
  {
  }

  /** The first group of a Count match at `i`: the digits after the lead, read as a number. */
  function CountValue(s: string, i: nat, lead: string): nat
    requires i + |lead| <= |s|
  {
    var j := i + |lead|;
    var n := DigitRun(s, j);
    var ds := s[j..j + n];
    assert AllDigits(ds) by {
      forall m | 0 <= m < |ds| ensures IsDigit(ds[m]) {
        assert ds[m] == s[j + m];
      }
    }
    DigitsValue(ds)
  }

  /** The first group of a Mention match at `i`: the handle after the `@`. */
  function MentionHandle(s: string, i: nat): string
    requires i < |s|
  {
    s[i + 1..i + 1 + WordRun(s, i + 1)]
  }
}

=== FILE: store.dfy ===
/**
 * The two tables the bot keeps, `users` and `tasks`, as an immutable value, with
 * the lookups and inserts the handlers perform on them.
 */
module TaskStore {
  import opened Wrappers
  import opened TaskExtraction

  type UserId = nat
  type TaskId = nat

  /** A row of `users`: primary key, the unique Telegram id, and the optional handle. */
  datatype User = User(id: UserId, telegramId: int, username: Option<string>)

  /** A row of `tasks` (its primary key is the key it is stored under). */
  datatype Task = Task(
    title: string,
    description: string,
    due: Option<Instant>,
    status: string,
    priority: Priority,
    assigneeId: Option<UserId>,
    creatorId: UserId,
    isCompleted: bool)

  /** The column default of `status`. */
  const DefaultStatus: string := "pending"

  /**
   * The store: the users in insertion order (which is the order `.first()` sees),
   * the tasks by id, and the next primary key of each table.
   */
  datatype Store = Store(users: seq<User>, tasks: map<TaskId, Task>, nextUserId: UserId, nextTaskId: TaskId)

  const Empty: Store := Store([], map[], 1, 1)

  /** The primary keys of `users`. */
  function UserIds(st: Store): set<UserId> {
    set i | 0 <= i < |st.users| :: st.users[i].id
  }

  /**
   * The database constraints: user ids and Telegram ids are unique, ids lie below
   * the next key, and every creator and assignee is a stored user.
   */
  ghost predicate Valid(st: Store) {
    && (forall i, j :: 0 <= i < j < |st.users| ==>
          st.users[i].id != st.users[j].id && st.users[i].telegramId != st.users[j].telegramId)
    && (forall i :: 0 <= i < |st.users| ==> st.users[i].id < st.nextUserId)
    && (forall k :: k in st.tasks ==> k < st.nextTaskId)
    && (forall k :: k in st.tasks ==> st.tasks[k].creatorId in UserIds(st))
    && (forall k :: k in st.tasks && st.tasks[k].assigneeId.Some? ==> st.tasks[k].assigneeId.value in UserIds(st))
  }

  lemma EmptyIsValid()
    ensures Valid(Empty)
  {
  }

  /** `query(User).filter(User.telegram_id == tid).first()`. */
  function UserByTelegram(users: seq<User>, tid: int): (r: Option<User>)
    ensures r.None? <==> forall i :: 0 <= i < |users| ==> users[i].telegramId != tid
    ensures r.Some? ==> exists i ::
      && 0 <= i < |users| && users[i] == r.value && r.value.telegramId == tid
      && forall j :: 0 <= j < i ==> users[j].telegramId != tid
  {
    if |users| == 0 then None
    else if users[0].telegramId == tid then Some(users[0])
    else
      var r := UserByTelegram(users[1..], tid);
      assert forall i :: 1 <= i < |users| ==> users[i] == users[1..][i - 1];
      r
  }

  /** `query(User).filter(User.username == name).first()`. */
  function UserByUsername(users: seq<User>, name: string): (r: Option<User>)
    ensures r.None? <==> forall i :: 0 <= i < |users| ==> users[i].username != Some(name)
    ensures r.Some? ==> exists i ::
      && 0 <= i < |users| && users[i] == r.value && r.value.username == Some(name)
      && forall j :: 0 <= j < i ==> users[j].username != Some(name)
  {
    if |users| == 0 then None
    else if users[0].username == Some(name) then Some(users[0])
    else
      var r := UserByUsername(users[1..], name);
      assert forall i :: 1 <= i < |users| ==> users[i] == users[1..][i - 1];
      r
  }

  /** The ids of the tasks assigned to user `uid`. */
  function AssignedTo(st: Store, uid: UserId): set<TaskId> {
    set k | k in st.tasks && st.tasks[k].assigneeId == Some(uid)
  }

  /** The ids of the tasks created by user `uid` (the `created_tasks` relationship). */
  function CreatedBy(st: Store, uid: UserId): set<TaskId> {
    set k | k in st.tasks && st.tasks[k].creatorId == uid
  }
}

=== FILE: text.dfy ===
/**
 * The string primitives of the Python runtime that the task bot relies on,
 * defined over a fixed alphabet: ASCII, the Cyrillic block U+0410..U+044F and Ё/ё.
 * On that alphabet `lower()`, `\d`, `\w`, `strip()`, `split()` and `in` have the
 * exact meaning given here.
 */
module Text {
  import opened Wrappers

  /** Python's `str.isspace()`: the complete set of Unicode whitespace characters. */
  predicate IsSpace(c: char) {
    || c == ' '
    || ('\t' <= c <= '\r')
    || ('\U{1C}' <= c <= '\U{1F}')
    || c == '\U{85}' || c == '\U{A0}' || c == '\U{1680}'
    || ('\U{2000}' <= c <= '\U{200A}')
    || c == '\U{2028}' || c == '\U{2029}' || c == '\U{202F}' || c == '\U{205F}' || c == '\U{3000}'
  }

  /** `\d`, restricted to ASCII digits. */
  predicate IsDigit(c: char) {
    '0' <= c <= '9'
  }

  /** The regex class `[А-Яа-я]`: U+0410..U+044F, which does not include Ё/ё. */
  predicate IsCyrillicLetter(c: char) {
    'А' <= c <= 'я'
  }

  /** `\w` on the alphabet: letters, digits and the underscore. */
  predicate IsWordChar(c: char) {
    || ('a' <= c <= 'z') || ('A' <= c <= 'Z')
    || IsDigit(c) || c == '_'
    || IsCyrillicLetter(c) || c == 'Ё' || c == 'ё'
  }

  /** The capital letters of the alphabet: `A-Z`, `А-Я` and `Ё`. */
  predicate IsUpperLetter(c: char) {
    ('A' <= c <= 'Z') || ('А' <= c <= 'Я') || c == 'Ё'
  }

  /** The capitals and, position by position, their small letters. */
  const LatinCapitals: string := "ABCDEFGHIJKLMNOPQRSTUVWXYZ"
  const LatinSmall: string := "abcdefghijklmnopqrstuvwxyz"
  const CyrillicCapitals: string := "АБВГДЕЖЗИЙКЛМНОПРСТУФХЦЧШЩЪЫЬЭЮЯ"
  const CyrillicSmall: string := "абвгдежзийклмнопрстуфхцчшщъыьэюя"

  /** `c.lower()`: a capital becomes its small letter, every other character stays. */
  function LowerChar(c: char): (r: char)
    ensures !IsUpperLetter(r)
    ensures !IsUpperLetter(c) ==> r == c
    ensures IsUpperLetter(c) ==> r != c
  {
    if 'A' <= c <= 'Z' then (c as int + 32) as char
    else if 'А' <= c <= 'Я' then (c as int + 32) as char
    else if c == 'Ё' then 'ё'
    else c
  }

  /** The capitals are exactly the letters of the two tables and `Ё`. */
  lemma UpperLettersAreTables(c: char)
    ensures IsUpperLetter(c) <==> c in LatinCapitals || c in CyrillicCapitals || c == 'Ё'
  {
    if 'A' <= c <= 'Z' {
      assert LatinCapitals[c as int - 'A' as int] == c;
    } else if 'А' <= c <= 'Я' {
      assert CyrillicCapitals[c as int - 'А' as int] == c;
    } else {
      forall k | 0 <= k < |LatinCapitals| ensures LatinCapitals[k] != c {
        assert LatinCapitals[k] as int == 'A' as int + k;
      }
      forall k | 0 <= k < |CyrillicCapitals| ensures CyrillicCapitals[k] != c {
        assert CyrillicCapitals[k] as int == 'А' as int + k;
      }
    }
  }

  /** The Latin table holds consecutive code points from `A`, and its small letters from `a`. */
  lemma LatinTableLowered(k: int)
    requires 0 <= k < |LatinCapitals|
    ensures LowerChar(LatinCapitals[k]) == LatinSmall[k]
  {
    assert LatinCapitals[k] as int == 'A' as int + k;
    assert LatinSmall[k] as int == 'a' as int + k;
  }

  /** The Cyrillic table holds consecutive code points from `А`, and its small letters from `а`. */
  lemma CyrillicTableLowered(k: int)
    requires 0 <= k < |CyrillicCapitals|
    ensures LowerChar(CyrillicCapitals[k]) == CyrillicSmall[k]
  {
    assert CyrillicCapitals[k] as int == 'А' as int + k;
    assert CyrillicSmall[k] as int == 'а' as int + k;
  }

  /** Each capital is lower-cased to the small letter at the same place of its table. */
  lemma LowerCharFollowsTables()
    ensures forall k :: 0 <= k < |LatinCapitals| ==> LowerChar(LatinCapitals[k]) == LatinSmall[k]
    ensures forall k :: 0 <= k < |CyrillicCapitals| ==> LowerChar(CyrillicCapitals[k]) == CyrillicSmall[k]
    ensures LowerChar('Ё') == 'ё'
  {
    forall k | 0 <= k < |LatinCapitals| ensures LowerChar(LatinCapitals[k]) == LatinSmall[k] {
      LatinTableLowered(k);
    }
    forall k | 0 <= k < |CyrillicCapitals| ensures LowerChar(CyrillicCapitals[k]) == CyrillicSmall[k] {
      CyrillicTableLowered(k);
    }
  }

  /** `str.lower()`: character by character on the alphabet, so the length is kept. */
  function Lower(s: string): (r: string)
    ensures |r| == |s|
    ensures forall i :: 0 <= i < |s| ==> r[i] == LowerChar(s[i])
    ensures forall i :: 0 <= i < |s| ==> !IsUpperLetter(r[i])
    ensures forall i :: 0 <= i < |s| && !IsUpperLetter(s[i]) ==> r[i] == s[i]
  {
    seq(|s|, i requires 0 <= i < |s| => LowerChar(s[i]))
  }

  /** Lower-casing twice is lower-casing once. */
  lemma LowerIdempotent(s: string)
    ensures Lower(Lower(s)) == Lower(s)
  {
  }

  predicate AllSpace(s: string) {
    forall i :: 0 <= i < |s| ==> IsSpace(s[i])
  }

  predicate NoSpace(s: string) {
    forall i :: 0 <= i < |s| ==> !IsSpace(s[i])
  }

  /** The number of whitespace characters that start `s`. */
  function LeadingSpaces(s: string): (n: nat)
    ensures n <= |s|
    ensures AllSpace(s[..n])
    ensures n == |s| || !IsSpace(s[n])
  {
    if |s| > 0 && IsSpace(s[0]) then 1 + LeadingSpaces(s[1..]) else 0
  }

  /** The number of whitespace characters that end `s`. */
  function TrailingSpaces(s: string): (n: nat)
    ensures n <= |s|
    ensures AllSpace(s[|s| - n..])
    ensures n == |s| || !IsSpace(s[|s| - n - 1])
  {
    if |s| > 0 && IsSpace(s[|s| - 1]) then 1 + TrailingSpaces(s[..|s| - 1]) else 0
  }

  /** `str.strip()`: the slice of `s` left when all leading and trailing whitespace is cut. */
  function Strip(s: string): (r: string)
    ensures exists a, b :: 0 <= a <= b <= |s| && r == s[a..b] && AllSpace(s[..a]) && AllSpace(s[b..])
    ensures |r| == 0 || (!IsSpace(r[0]) && !IsSpace(r[|r| - 1]))
    ensures forall c :: c in r ==> c in s
  {
    var a := LeadingSpaces(s);
    var t := s[a..];
    var n := TrailingSpaces(t);
    var b := |s| - n;
    assert s[b..] == t[|t| - n..];
    assert a < b ==> s[a..b][0] == s[a] && s[a..b][b - a - 1] == t[|t| - n - 1];
    SliceChars(s, a, b);
    s[a..b]
  }

  /** Every character of a slice occurs in the whole. */
  lemma SliceChars(s: string, a: int, b: int)
    requires 0 <= a <= b <= |s|
    ensures forall c :: c in s[a..b] ==> c in s
  {
    forall c | c in s[a..b] ensures c in s {
      var i :| 0 <= i < b - a && s[a..b][i] == c;
      assert s[a + i] == c;
    }
  }

  /** Stripping a string whose ends are not whitespace changes nothing. */
  lemma StripUnpadded(s: string)
    requires |s| > 0 && !IsSpace(s[0]) && !IsSpace(s[|s| - 1])
    ensures Strip(s) == s
  {
    assert LeadingSpaces(s) == 0;
    assert TrailingSpaces(s) == 0;
  }

  /** Stripping leaves nothing exactly when the string is all whitespace. */
  lemma StripEmptyIff(s: string)
    ensures Strip(s) == "" <==> AllSpace(s)
  {
    var a := LeadingSpaces(s);
    var t := s[a..];
    var n := TrailingSpaces(t);
    if Strip(s) == "" {
      assert n == |t|;
      forall k | 0 <= k < |s| ensures IsSpace(s[k]) {
        assert s[..a][k] == s[k];
      }
    }
  }

  /** A slice with non-whitespace ends and only whitespace around it is what stripping leaves. */
  lemma StripPadded(s: string, a: int, b: int)
    requires 0 <= a < b <= |s|
    requires AllSpace(s[..a]) && AllSpace(s[b..])
    requires !IsSpace(s[a]) && !IsSpace(s[b - 1])
    ensures Strip(s) == s[a..b]
  {
    LeadingSpacesExact(s, a);
    var t := s[a..];
    assert t[..b - a] == s[a..b] && t[b - a..] == s[b..];
    TrailingSpacesExact(t, b - a);
  }

  /** A whitespace prefix followed by non-whitespace is exactly what `LeadingSpaces` counts. */
  lemma LeadingSpacesExact(s: string, a: int)
    requires 0 <= a < |s| && AllSpace(s[..a]) && !IsSpace(s[a])
    ensures LeadingSpaces(s) == a
  {
    var n := LeadingSpaces(s);
    assert forall k :: 0 <= k < a ==> s[..a][k] == s[k];
    assert forall k :: 0 <= k < n ==> s[..n][k] == s[k];
  }

  /** A whitespace suffix preceded by non-whitespace is exactly what `TrailingSpaces` counts. */
  lemma TrailingSpacesExact(s: string, b: int)
    requires 0 < b <= |s| && AllSpace(s[b..]) && !IsSpace(s[b - 1])
    ensures TrailingSpaces(s) == |s| - b
  {
    var n := TrailingSpaces(s);
    assert forall k :: b <= k < |s| ==> s[b..][k - b] == s[k];
    assert forall k :: |s| - n <= k < |s| ==> s[|s| - n..][k - (|s| - n)] == s[k];
  }

  /** `s.lstrip(c)`: `s` without every leading copy of `c`. */
  function LStripChar(s: string, c: char): (r: string)
    ensures IsSuffix(r, s)
    ensures forall i :: 0 <= i < |s| - |r| ==> s[i] == c
    ensures |r| == 0 || r[0] != c
  {
    if |s| > 0 && s[0] == c then LStripChar(s[1..], c) else s
  }

  /** The index of the first `c` in `s`. */
  function IndexOf(s: string, c: char): (r: Option<nat>)
    ensures r.None? <==> c !in s
    ensures r.Some? ==> r.value < |s| && s[r.value] == c && c !in s[..r.value]
  {
    if |s| == 0 then None
    else if s[0] == c then Some(0)
    else match IndexOf(s[1..], c)
      case None => None
      case Some(i) => assert s[..i + 1] == [s[0]] + s[1..][..i]; Some(i + 1)
  }

  /** `sep.join(parts)`. */
  function Join(parts: seq<string>, sep: char): string {
    if |parts| == 0 then ""
    else if |parts| == 1 then parts[0]
    else parts[0] + [sep] + Join(parts[1..], sep)
  }

  /** `s.split(sep)` for a one-character separator: the pieces between separators, rejoined to `s`. */
  function Split(s: string, sep: char): (parts: seq<string>)
    ensures |parts| >= 1
    ensures forall k :: 0 <= k < |parts| ==> sep !in parts[k]
    ensures Join(parts, sep) == s
    decreases |s|
  {
    match IndexOf(s, sep)
    case None => [s]
    case Some(i) =>
      var rest := Split(s[i + 1..], sep);
      var parts := [s[..i]] + rest;
      assert parts[1..] == rest;
      assert s == s[..i] + [sep] + s[i + 1..];
      parts
  }

  /** `p` is what is left of `s` after cutting some prefix. */
  predicate IsSuffix(p: string, s: string) {
    |p| <= |s| && s[|s| - |p|..] == p
  }

  /** The first index at or after `i` that does not hold whitespace, or `|s|`. */
  function SkipFrom(s: string, i: nat): (j: nat)
    requires i <= |s|
    ensures i <= j <= |s| && (j == |s| || !IsSpace(s[j]))
    ensures forall k :: i <= k < j ==> IsSpace(s[k])
    decreases |s| - i
  {
    if i < |s| && IsSpace(s[i]) then SkipFrom(s, i + 1) else i
  }

  /** The first index at or after `i` that holds whitespace, or `|s|`. */
  function TokenEnd(s: string, i: nat): (j: nat)
    requires i <= |s|
    ensures i <= j <= |s| && (j == |s| || IsSpace(s[j]))
    ensures forall k :: i <= k < j ==> !IsSpace(s[k])
    decreases |s| - i
  {
    if i < |s| && !IsSpace(s[i]) then TokenEnd(s, i + 1) else i
  }

  /** `s[a..b]` is all whitespace. */
  predicate SpaceIn(s: string, a: int, b: int) {
    0 <= a <= b <= |s| && forall j :: a <= j < b ==> IsSpace(s[j])
  }

  /** `s[a..b]` is a whole token: non-empty, free of whitespace, and not followed by more of it. */
  predicate TokenIn(s: string, a: int, b: int) {
    && 0 <= a < b <= |s|
    && (forall j :: a <= j < b ==> !IsSpace(s[j]))
    && (b == |s| || IsSpace(s[b]))
  }

  /**
   * `b` lists the (start, end) of each part of `s[i..].split(maxsplit=m)`: only
   * whitespace before the first part, between parts and after the last; each part
   * starts with non-whitespace; parts before the limit are whole tokens; at most
   * `m + 1` parts, and a part cut by the limit runs to the end of `s`.
   */
  predicate IsSplit(s: string, i: nat, m: int, b: seq<(nat, nat)>) {
    && (|b| == 0 ==> SpaceIn(s, i, |s|))
    && (|b| > 0 ==> SpaceIn(s, i, b[0].0))
    && (forall k :: 0 <= k < |b| ==> b[k].0 < b[k].1 <= |s| && !IsSpace(s[b[k].0]))
    && (forall k :: 0 <= k < |b| - 1 ==> SpaceIn(s, b[k].1, b[k + 1].0))
    && (forall k :: 0 <= k < |b| && (m < 0 || k < m) ==> TokenIn(s, b[k].0, b[k].1))
    && (m >= 0 ==> |b| <= m + 1)
    && (m >= 0 && |b| == m + 1 ==> b[m].1 == |s|)
    && (|b| > 0 && (m < 0 || |b| <= m) ==> SpaceIn(s, b[|b| - 1].1, |s|))
  }

  /** The part boundaries of `s[i..].split(maxsplit=m)`. */
  function SplitBounds(s: string, i: nat, m: int): seq<(nat, nat)>
    requires i <= |s|
    decreases |s| - i
  {
    var j := SkipFrom(s, i);
    if j == |s| then []
    else if m == 0 then [(j, |s|)]
    else [(j, TokenEnd(s, j))] + SplitBounds(s, TokenEnd(s, j), if m < 0 then m else m - 1)
  }

  /** A whole token after leading whitespace, followed by a split of the rest, is a split. */
  lemma IsSplitCons(s: string, i: nat, m: int, j: nat, e: nat, rest: seq<(nat, nat)>)
    requires m != 0 && SpaceIn(s, i, j) && TokenIn(s, j, e)
    requires IsSplit(s, e, if m < 0 then m else m - 1, rest)
    ensures IsSplit(s, i, m, [(j, e)] + rest)
  {
    var b := [(j, e)] + rest;
    var m1 := if m < 0 then m else m - 1;
    assert forall k :: 1 <= k < |b| ==> b[k] == rest[k - 1];
    assert forall k :: 0 <= k < |b| ==> b[k].0 < b[k].1 <= |s| && !IsSpace(s[b[k].0]);
    assert forall k :: 0 <= k < |b| - 1 ==> SpaceIn(s, b[k].1, b[k + 1].0) by {
      forall k | 0 <= k < |b| - 1 ensures SpaceIn(s, b[k].1, b[k + 1].0) {
        if k == 0 {
          if |rest| > 0 {
            assert SpaceIn(s, e, rest[0].0);
          }
        } else {
          assert SpaceIn(s, rest[k - 1].1, rest[k].0);
        }
      }
    }
    assert forall k :: 0 <= k < |b| && (m < 0 || k < m) ==> TokenIn(s, b[k].0, b[k].1) by {
      forall k | 0 <= k < |b| && (m < 0 || k < m) ensures TokenIn(s, b[k].0, b[k].1) {
        if k > 0 {
          assert m1 < 0 || k - 1 < m1;
        }
      }
    }
    if |rest| == 0 {
      assert SpaceIn(s, e, |s|);
    }
  }

  /** `SplitBounds` computes the split. */
  lemma {:induction false} SplitBoundsIsSplit(s: string, i: nat, m: int)
    requires i <= |s|
    ensures IsSplit(s, i, m, SplitBounds(s, i, m))
    decreases |s| - i
  {
    var j := SkipFrom(s, i);
    assert SpaceIn(s, i, j);
    if j < |s| && m != 0 {
      var e := TokenEnd(s, j);
      var m1 := if m < 0 then m else m - 1;
      SplitBoundsIsSplit(s, e, m1);
      IsSplitCons(s, i, m, j, e, SplitBounds(s, e, m1));
    }
  }

  /** Dropping the first part of a split whose first part is a whole token leaves a split of the rest. */
  lemma IsSplitTail(s: string, i: nat, m: int, b: seq<(nat, nat)>)
    requires IsSplit(s, i, m, b) && |b| > 0 && m != 0
    ensures IsSplit(s, b[0].1, if m < 0 then m else m - 1, b[1..])
  {
    var m1 := if m < 0 then m else m - 1;
    var rest := b[1..];
    assert forall k :: 0 <= k < |rest| ==> rest[k] == b[k + 1];
    assert TokenIn(s, b[0].0, b[0].1);
    if |rest| > 0 {
      assert SpaceIn(s, b[0].1, rest[0].0);
    }
    forall k | 0 <= k < |rest| && (m1 < 0 || k < m1) ensures TokenIn(s, rest[k].0, rest[k].1) {
      assert m < 0 || k + 1 < m;
    }
    forall k | 0 <= k < |rest| - 1 ensures SpaceIn(s, rest[k].1, rest[k + 1].0) {
      assert SpaceIn(s, b[k + 1].1, b[k + 2].0);
    }
  }

  /** The first non-whitespace position after a whitespace run is determined. */
  lemma FirstStartUnique(s: string, i: nat, a1: nat, a2: nat)
    requires SpaceIn(s, i, a1) && a1 < |s| && !IsSpace(s[a1])
    requires SpaceIn(s, i, a2) && a2 < |s| && !IsSpace(s[a2])
    ensures a1 == a2
  {
  }

  /** At most one split fits: the parts of `split` are determined by `s` and `m`. */
  lemma {:induction false} IsSplitUnique(s: string, i: nat, m: int, b1: seq<(nat, nat)>, b2: seq<(nat, nat)>)
    requires i <= |s|
    requires IsSplit(s, i, m, b1) && IsSplit(s, i, m, b2)
    ensures b1 == b2
    decreases |s| - i
  {
    if |b1| > 0 && |b2| > 0 {
      FirstStartUnique(s, i, b1[0].0, b2[0].0);
      if m == 0 {
        assert b1 == [b1[0]] && b2 == [b2[0]];
      } else {
        assert TokenIn(s, b1[0].0, b1[0].1) && TokenIn(s, b2[0].0, b2[0].1);
        assert b1[0].1 == b2[0].1;
        IsSplitTail(s, i, m, b1);
        IsSplitTail(s, i, m, b2);
        IsSplitUnique(s, b1[0].1, if m < 0 then m else m - 1, b1[1..], b2[1..]);
        assert b1 == [b1[0]] + b1[1..] && b2 == [b2[0]] + b2[1..];
      }
    }
  }

  /** What the parts cut out of `s` at a split's boundaries look like one by one. */
  lemma SplitPartsShape(s: string, m: int, b: seq<(nat, nat)>, parts: seq<string>)
    requires IsSplit(s, 0, m, b)
    requires |parts| == |b| && forall k :: 0 <= k < |b| ==> parts[k] == s[b[k].0..b[k].1]
    ensures forall k :: 0 <= k < |parts| ==> |parts[k]| > 0 && !IsSpace(parts[k][0])
    ensures forall k :: 0 <= k < |parts| && (m < 0 || k < m) ==> NoSpace(parts[k])
    ensures m >= 0 ==> |parts| <= m + 1
    ensures m >= 0 && |parts| == m + 1 ==> IsSuffix(parts[m], s)
  {
    assert forall k :: 0 <= k < |b| ==> parts[k][0] == s[b[k].0];
    forall k | 0 <= k < |b| && (m < 0 || k < m) ensures NoSpace(parts[k]) {
      assert TokenIn(s, b[k].0, b[k].1);
    }
  }

  /**
   * `s.split(maxsplit=m)` with no separator (`m < 0`, Python's default -1, means no
   * limit): tokens separated by whitespace runs; once `m` splits are made, the rest
   * of the string from its next non-whitespace character, trailing whitespace
   * included, is the last part.
   */
  function SplitWhitespace(s: string, maxsplit: int): (parts: seq<string>)
    ensures var b := SplitBounds(s, 0, maxsplit);
      && IsSplit(s, 0, maxsplit, b)
      && |parts| == |b|
      && forall k :: 0 <= k < |b| ==> parts[k] == s[b[k].0..b[k].1]
    ensures forall k :: 0 <= k < |parts| ==> |parts[k]| > 0 && !IsSpace(parts[k][0])
    ensures forall k :: 0 <= k < |parts| && (maxsplit < 0 || k < maxsplit) ==> NoSpace(parts[k])
    ensures maxsplit >= 0 ==> |parts| <= maxsplit + 1
    ensures maxsplit >= 0 && |parts| == maxsplit + 1 ==> IsSuffix(parts[maxsplit], s)
  {
    var b := SplitBounds(s, 0, maxsplit);
    SplitBoundsIsSplit(s, 0, maxsplit);
    var parts := seq(|b|, k requires 0 <= k < |b| => s[b[k].0..b[k].1]);
    SplitPartsShape(s, maxsplit, b, parts);
    parts
  }

  /** `w in s` for strings: `w` occurs in `s` at position `i`. */
  predicate OccursAt(s: string, w: string, i: int) {
    0 <= i && i + |w| <= |s| && s[i..i + |w|] == w
  }

  /** `w in s` for strings. */
  predicate Contains(s: string, w: string) {
    exists i :: 0 <= i <= |s| - |w| && OccursAt(s, w, i)
  }

  /** A phrase that occurs inside an occurring phrase occurs too. */
  lemma ContainsTransitive(s: string, w: string, v: string)
    requires Contains(s, w) && Contains(w, v)
    ensures Contains(s, v)
  {
    var i :| 0 <= i <= |s| - |w| && OccursAt(s, w, i);
    var j :| 0 <= j <= |w| - |v| && OccursAt(w, v, j);
    forall k | 0 <= k < |v|
      ensures s[i + j + k] == v[k]
    {
      assert s[i + j + k] == s[i..i + |w|][j + k];
      assert w[j + k] == w[j..j + |v|][k];
    }
    assert OccursAt(s, v, i + j);
  }

  function DigitValue(c: char): nat
    requires IsDigit(c)
  {
    c as int - '0' as int
  }

  predicate AllDigits(s: string) {
    forall i :: 0 <= i < |s| ==> IsDigit(s[i])
  }

  /** The base-10 value of a digit string, as `int()` reads it (leading zeros allowed). */
  function DigitsValue(ds: string): nat
    requires AllDigits(ds)
  {
    if |ds| == 0 then 0 else DigitsValue(ds[..|ds| - 1]) * 10 + DigitValue(ds[|ds| - 1])
  }
}

=== FILE: wrappers.dfy ===
/** The optional value used wherever the system has "None" or an absent result. */
module Wrappers {

  datatype Option<+T> = None | Some(value: T)
}
